=== FILE: README.md ===
# neuralnet in Dafny

A model of the Go package `neuralnet` (moverest/neuralnet): a fully connected
feed-forward network with sigmoid activations, trained by mini-batch
stochastic gradient descent, and saved to and loaded from a big-endian binary
file. The model covers the four core files:

- `linearalg.go`: the vector and matrix primitives, in module `LinearAlg`.
- `neuralnet.go`: the network, its construction, randomisation, inference and
  layer count, in module `NeuralNet`, with the sigmoid's derivative in
  `Activation`.
- `sdg.go`: backpropagation, one mini-batch step and the epoch loop, in module
  `Sgd`.
- `load.go`: the file format, in module `Load`.

`Results` holds the error type shared by all of them.

Modelling choices, in the package's own terms:

- **Numbers.** Parameters are `real`, so float64 rounding is not modelled. The
  sigmoid is a parameter `sigmoid: real -> real` of every operation that
  applies it. Each property therefore holds for every activation function,
  the logistic one included.
- **Panics.** The package signals errors in two ways.
  - Explicit panics become `Failure` results: the length checks of
    `addVects`, `subVects`, `addVectOfVects` and `addVectOfMats`
    (`ShapeMismatch`), the empty mini-batch in `sgdEpoch` (`EmptyBatch`), and
    `New` on zero layers inside `LoadFile` (`NoLayers`).
  - Indexing that Go checks at run time becomes a precondition: a short
    matrix row, `m[0]` of an empty matrix, a hadamard operand that is too
    short, and an input longer than the input layer.
- **Files.** The file is a byte sequence. `LoadFile`'s errors are `EOF` and
  `UnexpectedEOF` (the two outcomes of `io.ReadFull`) and `Format` (a negative
  count or size). A float64 is carried as its 64-bit pattern (`Word64`), so
  the codec is exact.
- **Randomness.** `rand.Perm` and `rand.NormFloat64` become inputs. `SGD`
  takes one permutation per epoch. `Randomize` takes the value drawn for each
  position.

Where the code and its documentation disagree, the model follows the code:

- `FeedForward` never adds the biases, although its documentation and the
  training forward pass both imply they are added. This is logged under
  Findings, with a corrected `Predict`.
- The training forward pass does not check the input's length. A shorter input
  is read as if padded with zeros (`LinearAlg.MultMatrixVectZeroPadding`), and
  the step only fails later, when `sgdEpoch` adds a gradient of the wrong width
  (`Sgd.SgdEpochOutcome`).
- The doc comment of `SGD` (sdg.go:10-11) says a nil test set means no
  evaluation, but the loop calls `evaluate(net, test)` and `test.Count()` after
  every epoch without a nil check (sdg.go:25). With a nil test set, the call on
  the nil `Set` interface panics once the first epoch's updates are done, so
  nothing is logged and no later epoch runs. The model covers only a non-nil
  test set and callback (`Sgd.SGD` under Left out).

## Model

| member | source | states |
|---|---|---|
| Activation.SigmoidDiff | neuralnet.go:82-86 | the derivative s(1 - s) for s = sigmoid(x) is zero where the sigmoid saturates at 0 or 1; its range and the converse are stated by Activation.SigmoidDiffBounds |
| Activation.SigmoidDiffBounds | neuralnet.go:82-86 | the derivative is s(1 - s) for s = sigmoid(x); it is in (0, 1/4] when s is strictly between 0 and 1, and zero exactly when s is 0 or 1 |
| LinearAlg.MultMatrixVect | linearalg.go:3-16 | one entry per row of m; entry i is the sum over j < len(v) of m[i][j] v[j], so entries of a row past len(v) are ignored |
| LinearAlg.DotPrefix | linearalg.go:3-16 | the product reads only the first len(v) entries of each row and of v |
| LinearAlg.MultMatrixVectZeroPadding | linearalg.go:3-16 | appending zeros to v leaves the product unchanged, so a short input behaves as if zero-padded |
| LinearAlg.DotZeroTail | linearalg.go:7-9 | appending zeros to v and running the sum k entries further, over some of them, leaves the dot product unchanged |
| LinearAlg.MultTransposeMatVector | linearalg.go:33-48 | one entry per column of m[0]; entry i is the sum over all rows j of m[j][i] v[j]; v only needs len(m) entries when m has a column, so a column-less matrix gives the empty vector for any v |
| LinearAlg.Transpose | linearalg.go:33-48 | the reference transpose: entry [i][j] is m[j][i] |
| LinearAlg.ColumnDotIsTransposedDot | linearalg.go:38-45 | summing column i against v equals the dot product of row i of the explicit transpose with v |
| LinearAlg.MultTransposeMatVectorIsTransposedProduct | linearalg.go:33-48 | multTransposeMatVector equals multMatrixVect applied to the explicit transpose and the first len(m) entries of v |
| LinearAlg.HadamardProdVect | linearalg.go:50-58 | one entry per entry of v1, each the product of the entries at that index; extra entries of v2 are ignored |
| LinearAlg.HadamardProdVectCommutes | linearalg.go:50-58 | on equal lengths the entrywise product does not depend on operand order |
| LinearAlg.MultVectTransposeVect | linearalg.go:60-72 | a len(v1) x len(v2) matrix whose entry [i][j] is v1[i] v2[j] |
| LinearAlg.MultVectTransposeVectSwap | linearalg.go:60-72 | swapping the operands of the outer product transposes it |
| LinearAlg.SubVects | linearalg.go:74-87 | fails with ShapeMismatch exactly when the lengths differ; otherwise the entrywise difference |
| LinearAlg.AddVects | linearalg.go:89-102 | fails with ShapeMismatch exactly when the lengths differ; otherwise the entrywise sum |
| LinearAlg.AddSubInverse | linearalg.go:74-102 | adding b back to a - b gives a |
| LinearAlg.SigmoidVect | linearalg.go:104-113 | a fresh vector of the same length holding the sigmoid of every entry |
| LinearAlg.ApplySigmoidVector | linearalg.go:18-22 | the in-place loop leaves exactly sigmoidVect of the old contents in the array |
| LinearAlg.SigmoidDiffVector | linearalg.go:24-31 | a fresh vector as long as v, entry i the sigmoid's derivative at v[i]; the entries' bounds are stated by LinearAlg.SigmoidDiffVectorBounds |
| LinearAlg.SigmoidDiffVectorBounds | linearalg.go:24-31 | same length; each entry r satisfies r + s^2 = s for s the sigmoid of the input entry, and lies in (0, 1/4] when s is in (0, 1) |
| LinearAlg.MultScalarVect | linearalg.go:115-124 | same length; entry i is x v[i] |
| LinearAlg.MultScalarVectComposes | linearalg.go:115-124 | scaling by y then by x is scaling by x y |
| LinearAlg.AddVectOfVects | linearalg.go:126-145 | fails with ShapeMismatch exactly when the row counts or any pair of row lengths differ; otherwise has x's shape and holds the entrywise sum |
| LinearAlg.AddVectOfVectsCommutes | linearalg.go:126-145 | the sum and its failure do not depend on operand order |
| LinearAlg.AddVectOfVectsAssociates | linearalg.go:126-145 | regrouping a three-way sum of same-shaped matrices gives the same matrix |
| LinearAlg.AddVectOfMats | linearalg.go:147-160 | fails with ShapeMismatch exactly when the layer counts or any layer's shape differ; otherwise layer i is addVectOfVects of the two layers i |
| LinearAlg.AddVectOfMatsCommutes | linearalg.go:147-160 | the layer-wise sum does not depend on operand order, so deltas may be summed in any order |
| LinearAlg.AddVectOfMatsAssociates | linearalg.go:147-160 | regrouping a three-way layer-wise sum gives the same tensor |
| LinearAlg.MultMatrixVectExamples | linearalg_test.go:8-29 | the two products of the test table |
| LinearAlg.MultTransposeMatVectorExamples | linearalg_test.go:42-65 | the two transposed products of the test table, plus the column-less matrix [[]] with the empty vector giving the empty vector (linearalg.go:34-36), a case the table does not hold |
| LinearAlg.HadamardProdVectExamples | linearalg_test.go:78-93 | the two entrywise products of the test table |
| LinearAlg.MultVectTransposeVectExamples | linearalg_test.go:106-135 | the three outer products of the test table |
| LinearAlg.AddVectOfVectsExample | linearalg_test.go:148-170 | the matrix sum of the test table |
| NeuralNet.New | neuralnet.go:24-43 | the network has the given sizes and satisfies the shape invariant (matrix i has sizes[i+1] rows of sizes[i] entries, bias i has sizes[i+1] entries); every weight and bias is zero |
| NeuralNet.Randomize | neuralnet.go:45-61 | sizes and every shape are kept; every bias and weight is replaced by the value drawn for its position |
| NeuralNet.FeedForward | neuralnet.go:63-70 | with no weighted layer the input is returned unchanged; otherwise the output is as wide as the output layer |
| NeuralNet.FeedFrom | neuralnet.go:65-68 | from layer i on, the loop returns a vector as wide as the output layer, or its input when no layer is left |
| NeuralNet.CountLayers | neuralnet.go:72-75 | on a well-formed network, one more than the number of weight matrices and of bias vectors |
| NeuralNet.NewCountLayers | neuralnet.go:73-75 | a network built by New counts as many layers as it was given sizes |
| Sgd.WeightedInput | sdg.go:77-78 | entry j of a layer's weighted input is row j of the weights dotted with the activation, plus bias j |
| Sgd.WeightedInputStep | sdg.go:77-79 | one layer of the forward pass satisfies the layer relation: weighted input as above, activation its sigmoid |
| Sgd.ForwardUpTo | sdg.go:74-80 | after k layers: k + 1 activations, the input first, k weighted inputs, each layer related to the previous one |
| Sgd.ComputeAZ | sdg.go:69-83 | one activation per layer and one weighted input per weighted layer, the input first, every layer i + 1 computed from layer i by weights, bias and sigmoid |
| Sgd.Delta | sdg.go:95-99 | the error of layer l has one entry per neuron of layer l + 1 |
| Sgd.DeltaStep | sdg.go:95-99 | the hidden error entry j is column j of the next weights dotted with the next error, times the derivative at z_l[j] |
| Sgd.HiddenError | sdg.go:96-98 | one step of the loop, for any next error: the hadamard product of the transposed product and the derivative vector is the error relation above |
| Sgd.Deltas | sdg.go:88-99 | one error per weighted layer, the last the output error, consecutive ones related by the chain rule |
| Sgd.DeltasChain | sdg.go:95-99 | errors computed layer by layer by the recurrence satisfy the chain-rule relation between every two consecutive layers |
| Sgd.ComputeErr | sdg.go:85-102 | fails with ShapeMismatch exactly when the expected output is not as wide as the output layer; the output error is (a_n - y) times the derivative at z_{n-1}, entry by entry; hidden errors follow the chain rule |
| Sgd.ComputeWBDiffs | sdg.go:104-121 | bias delta [i][j] is -rate times error [i][j]; weight delta [i][j][k] is that bias delta times activation [i][k] |
| Sgd.ComputeWBDeltas | sdg.go:57-67 | fails with ShapeMismatch exactly when the expected output is the wrong width; otherwise the deltas are shaped like the parameters, with one column per input entry in the first layer |
| Sgd.ComputeWBDeltasEntries | sdg.go:57-67 | the entries of the deltas in terms of the forward pass and the error pass |
| Sgd.FirstLayerColumns | sdg.go:62-64 | column k of the first weight delta is the first bias delta times input entry k, so a zero input entry gives a zero column |
| Sgd.SampleGradient | sdg.go:41-42 | one fitting example's deltas are shaped like the parameters |
| Sgd.Accumulate | sdg.go:40-51 | the summing loop fails only with ShapeMismatch |
| Sgd.AddSample | sdg.go:41-50 | one iteration fails only with ShapeMismatch |
| Sgd.AddSampleOutcome | sdg.go:41-50 | one iteration succeeds exactly when the example matches the running sum's shape (output as wide as the output layer, input as long as the sum's first-layer columns), and then keeps that shape |
| Sgd.AllMatchStep | sdg.go:40 | every example from t on matches exactly when example t does and every one from t + 1 on does |
| Sgd.AccumulateOutcome | sdg.go:40-51 | the loop succeeds exactly when every remaining example matches the running sum's shape, and then keeps that shape |
| Sgd.GradientShapes | sdg.go:44-50 | two examples' deltas always agree in bias shape, and in weight shape exactly when their inputs have the same length or the first weighted layer is empty |
| Sgd.SumKeepsGradientShape | sdg.go:48-49 | adding same-shaped deltas keeps the shape |
| Sgd.EntryOfSum | sdg.go:48 | an entry of a summed weight delta is the sum of the entries |
| Sgd.AddSampleSum | sdg.go:41-50 | a fitting example always adds, and the new sum is the old one plus its deltas, layer by layer |
| Sgd.AccumulateSums | sdg.go:40-51 | on a fitting batch the loop succeeds and each entry of the result is the running sum plus the batch's deltas at that entry |
| Sgd.AddsSumsStep | sdg.go:47-50 | adding example t's deltas, then the sums from t + 1 on, adds the sums from t on |
| Sgd.AddsWeightSumsStep | sdg.go:48 | the weight half of that step |
| Sgd.AddsBiasSumsStep | sdg.go:49 | the bias half of that step |
| Sgd.SgdEpoch | sdg.go:29-55 | fails with EmptyBatch exactly on an empty batch, whatever the network; on success keeps the sizes, the parameter shapes and trainability |
| Sgd.ApplyGradient | sdg.go:53-54 | fails with ShapeMismatch exactly when the summed deltas are not shaped like the parameters; otherwise each parameter is its old value plus its delta |
| Sgd.ReshapedWellFormed | sdg.go:53-54 | parameters of unchanged shapes still satisfy the shape invariant |
| Sgd.ParametersAsGradient | sdg.go:53-54 | the parameters are shaped like the deltas of an input as wide as the input layer |
| Sgd.SgdEpochOutcome | sdg.go:32-55 | succeeds exactly when the batch is non-empty and every example fits the network; the only other failures are EmptyBatch (empty batch) and ShapeMismatch |
| Sgd.BatchFitsByMatches | sdg.go:40-51 | a non-empty batch fits exactly when its first example fits and the others match its input length |
| Sgd.SgdEpochUpdate | sdg.go:37-54 | on a fitting non-empty batch every weight and bias becomes its old value plus the sum of the batch's deltas at step rate / len(batch) |
| Sgd.ApplyGradientSums | sdg.go:44-54 | starting the sum at the first example's deltas and adding it to the parameters adds the deltas of every example of the batch |
| Sgd.ApplyWeightSums | sdg.go:53 | the weight half of that |
| Sgd.ApplyBiasSums | sdg.go:54 | the bias half of that |
| Sgd.Batch | sdg.go:22 | batch j is the j-th run of e consecutive permutation entries |
| Sgd.Batches | sdg.go:20-23 | len(perm) / e batches, each full, batch j being perm[j e .. (j+1) e]; none for a negative e |
| Sgd.BatchesCover | sdg.go:20-23 | the batches in order are the permutation without its last len(perm) mod e entries, which are never used |
| Sgd.BatchesPrefix | sdg.go:20-22 | the first m batches are the first m e entries |
| Sgd.BatchElement | sdg.go:22 | entry p of batch j is entry j e + p of the permutation |
| Sgd.BatchesDisjoint | sdg.go:18-22 | batches cut from a permutation share no example |
| Sgd.RunBatches | sdg.go:20-23 | with no batch any network comes back untouched; otherwise the batch loop keeps the sizes and trainability, and only a trainable network can change |
| Sgd.RunBatchesSucceeds | sdg.go:20-23 | when every example fits and no batch is empty, the batch loop never fails |
| Sgd.BatchesUsable | sdg.go:18-22 | every batch cut from indices of the training set is usable when every example fits |
| Sgd.BatchUsableAt | sdg.go:22 | batch j of such a cut is usable, entry by entry |
| Sgd.TrainEpoch | sdg.go:17-26 | when the permutation holds no full batch (len(perm) < epochSize, or a negative epochSize) any network comes back untouched; otherwise one epoch keeps the sizes and trainability |
| Sgd.SGD | sdg.go:14-27 | when no epoch holds a full batch any network comes back untouched; otherwise training keeps the sizes and trainability, and only a trainable network can change |
| Sgd.SgdSucceeds | sdg.go:14-27 | on a training set whose examples all fit, training succeeds for every sequence of permutations |
| Sgd.Predict | neuralnet.go:63-70 | corrected inference: the output activation of the training forward pass, biases included |
| Sgd.PredictFrom | neuralnet.go:65-68 | the corrected loop from layer i on returns a as is past the last weighted layer, and otherwise a vector as wide as the output layer |
| Sgd.PredictFromAgrees | sdg.go:76-80 | the corrected loop from layer i on agrees with the forward pass from activation i |
| Sgd.FeedForwardWithoutBiases | neuralnet.go:63-70 | when every bias is zero, FeedForward as written agrees with the training forward pass |
| Sgd.StripBiases | neuralnet.go:63-70 | the same sizes and weights, biases of the same shape, every bias zero, and the shape invariant kept |
| Sgd.FeedForwardIgnoresBiases | neuralnet.go:63-70 | on every well-formed network and fitting input, FeedForward is the training forward pass of the network with its biases zeroed: each layer is sigmoid(W a), no bias added |
| Sgd.FeedFromStripped | neuralnet.go:65-68 | the loop of FeedForward gives the same result whatever the biases |
| Sgd.FeedFromAgrees | neuralnet.go:65-68 | the as-written loop agrees with the forward pass layer by layer when the biases are zero |
| Sgd.FeedForwardDropsBias | neuralnet.go:63-70 | on a one-weight network with weight 0 and bias 1, FeedForward gives sigmoid(0) where the forward pass gives sigmoid(1) |
| Sgd.TestNetwork | sdg_test.go:22-41 | the 2-3-2 network of the test table is trainable |
| Sgd.TestNetworkWeighted | sdg_test.go:51-54 | on input (1, 0) its first weighted inputs are (7, 1, 9) |
| Sgd.TestNetworkDeltaColumns | sdg_test.go:61-75 | on input (1, 0) the second column of the first weight delta is zero and the first equals the first bias delta |
| Load.ValueBigEndian | load.go:36 | spelling a number that fits in n bytes big-endian and reading it back gives the number |
| Load.BigEndianValue | load.go:36 | reading n bytes as a number and spelling it back gives the bytes |
| Load.EncodeInt32 | load.go:95 | an int32 takes four bytes |
| Load.Int32Of | load.go:35-36 | the int32 read from four bytes is in [-2^31, 2^31) |
| Load.Int32Wraps | load.go:95-106 | writing int32(x) and reading it back gives x wrapped into the int32 range, which is x exactly when x is in that range |
| Load.Int32Bytes | load.go:48 | every four bytes encode the int32 they spell |
| Load.Float64Of | load.go:65 | the bits read from eight bytes are written back as those same eight bytes |
| Load.Float64RoundTrip | load.go:65 | writing a float64 and reading it back gives the same bits, and every eight bytes encode the bits they spell |
| Load.EncodeFloat64 | load.go:114 | a float64 is written as 8 bytes; Load.Float64RoundTrip states they read back as its bits |
| Load.EncodeWords | load.go:114 | 8 bytes per float64 |
| Load.EncodeSizes | load.go:101-106 | 4 bytes per size |
| Load.Encode | load.go:87-133 | the file starts with the layer count and the sizes, 4 bytes each |
| Load.EncodeMatrix | load.go:110-119 | a matrix is written row by row, 8 bytes per entry; Load.EncodeMatrixLength gives 8 * rows * cols for a rows x cols matrix, Load.EncodeBiasesLength the bias total (load.go:122-130) |
| Load.EncodeTensor | load.go:108-120 | the weight matrices are written one after the other, 8 bytes per entry; Load.EncodeWeightsLength gives 8 times the sum of sizes[i] * sizes[i+1] |
| Load.EncodeMatrixLength | load.go:110-119 | a rows x cols matrix is written as 8 * rows * cols bytes |
| Load.EncodeWeightsLength | load.go:108-120 | weights shaped by the sizes take 8 bytes for each of the sum of sizes[i] * sizes[i+1] weights |
| Load.EncodeBiasesLength | load.go:122-130 | biases shaped by the sizes take 8 bytes for each of the sum of sizes[i+1] biases |
| Load.EncodeLength | load.go:87-133 | a saved file is 4 + 4 len(sizes) + 8 (sum of sizes[i] * sizes[i+1] + sum of sizes[i+1]) bytes long |
| Load.ReadFull | load.go:36-39 | reading n bytes succeeds exactly when n are left, fails with EOF when none is left and UnexpectedEOF otherwise, and splits the input |
| Load.ReadInt32 | load.go:35-39 | succeeds exactly when 4 bytes are left; the value is in the int32 range and its encoding starts the input |
| Load.ReadFloat64 | load.go:65-68 | succeeds exactly when 8 bytes are left; its encoding starts the input |
| Load.ReadWords | load.go:75-80 | n float64s succeed exactly when 8n bytes are left; failures are EOF or UnexpectedEOF |
| Load.ReadMatrix | load.go:63-70 | a rows x cols matrix whose encoding starts the input; failures are EOF or UnexpectedEOF |
| Load.ReadWeights | load.go:62-71 | weight matrices shaped by the sizes, whose encoding starts the input |
| Load.ReadBiases | load.go:74-81 | bias vectors shaped by the sizes, whose encoding starts the input |
| Load.ReadSizes | load.go:45-57 | count sizes, each in the int32 range, whose encoding starts the input; failures are truncation or Format |
| Load.Decode | load.go:15-84 | no byte gives EOF, one to three give UnexpectedEOF; a loaded network is encodable and its file is a prefix of the input; every failure is truncation, Format or NoLayers |
| Load.ReadInt32Encode | load.go:35-42 | an int32 reads back from its encoding |
| Load.ReadFloat64Encode | load.go:65 | a float64 reads back from its encoding |
| Load.ReadWordsEncode | load.go:75-80 | a row of float64s reads back from its encoding |
| Load.ReadMatrixEncode | load.go:63-70 | a matrix reads back from its encoding |
| Load.ReadWeightsEncode | load.go:62-71 | the weights read back from their encoding |
| Load.ReadBiasesEncode | load.go:74-81 | the biases read back from their encoding |
| Load.ReadSizesEncode | load.go:45-57 | sizes below 2^31 read back from their encoding |
| Load.DecodedFile | load.go:15-84 | the count, sizes, weights and biases LoadFile reads in turn make up the file of the network they describe, which is encodable |
| Load.DecodeEncode | load.go:15-84 | LoadFile reads back what SaveFile wrote, whatever follows it |
| Load.DecodeExactly | load.go:15-84 | LoadFile returns a network exactly when the input starts with that encodable network's file |
| Load.ReadMatrixTruncated | load.go:63-70 | a strict prefix of an encoded matrix fails with EOF or UnexpectedEOF |
| Load.ReadWeightsTruncated | load.go:62-71 | a strict prefix of encoded weights fails with EOF or UnexpectedEOF |
| Load.ReadBiasesTruncated | load.go:74-81 | a strict prefix of encoded biases fails with EOF or UnexpectedEOF |
| Load.ReadSizesTruncated | load.go:45-57 | a strict prefix of encoded sizes fails with EOF or UnexpectedEOF |
| Load.DecodeTruncated | load.go:15-84 | every strict prefix of a saved file fails to load with EOF or UnexpectedEOF |
| Load.DecodeTruncatedParameters | load.go:60-84 | a saved file cut inside the weights or the biases fails to load with EOF or UnexpectedEOF |
| Load.DecodeNegativeCount | load.go:40-42 | a negative layer count fails with Format |
| Load.DecodeZeroLayers | load.go:45-59 | a zero layer count fails with NoLayers |
| Load.ReadSizesNegative | load.go:47-54 | the first negative size fails with Format |
| Load.DecodeNegativeSize | load.go:44-57 | a file whose sizes turn negative before the count is reached fails with Format |

## Left out

- Opening, creating and closing files (`os.Open`, `os.Create`, `Close`) and
  write errors: the model works on the byte sequence itself.
- float64 arithmetic: rounding, overflow, NaN and the exponential inside
  `Sigmoid`. Parameters are reals and the sigmoid is a parameter.
- The link between a `Word64` bit pattern and the real value it encodes. The
  codec is modelled on bit patterns, training on reals.
- `Sigmoid` and `SeedRand` themselves (the exponential and the clock).
- The random source. `rand.Perm` becomes the permutations given to `SGD`, one
  per epoch, so `epochNum` is their number. `rand.NormFloat64` becomes the
  draw function of `Randomize`.
- NeuralNet.Randomize: the value for each position is given directly, not as
  the n-th draw of one stream, so the order in which the source consumes the
  stream is not modelled.
- Sgd.SGD: assumes a non-nil test set and a non-nil `evaluate`. The
  `log.Printf` and `evaluate` calls at the end of every epoch do not change the
  network and are left out. The nil case, a panic after the first epoch that
  stops training with the network that epoch left, is not modelled.
- The `Set` interface. A training set is a sequence of examples, and
  `GetVects(i)` is its i-th element.
- Go's division by zero when `epochSize` is 0. This is a precondition of
  `Sgd.Batches` and `Sgd.TrainEpoch`. `Sgd.SGD` needs it only when there is an
  epoch, because with `epochNum` 0 the source never divides.
- Go's panics on slice indexing. Where the source would panic on an index,
  the model requires that index to be valid instead. The cases are: a weight
  row shorter than the input, `multTransposeMatVector` on an empty matrix or
  on a vector shorter than the matrix when the matrix has a column, any empty
  layer after the first hidden one, the output layer included
  (`Sgd.Trainable`), and a network without weighted layers in the error pass.
- NeuralNet.New: sizes are naturals, so a negative size cannot be given. The
  source accepts a negative input width when the first hidden layer is empty
  or absent (`New([]int{-1})` does not panic), because that width only sizes
  the rows of the first weight matrix. `LoadFile` never passes one, since it
  rejects negative sizes with `ErrFormat`.
- Memory limits. `make` with a huge count read from a file is not modelled
  as failing.
- NeuralNet.FeedForward: its own contract states only output shapes. Its
  value on every network is stated by `Sgd.FeedForwardIgnoresBiases`, which
  needs the training forward pass of module `Sgd`; `Sgd.FeedForwardWithoutBiases`
  is the special case of a network whose biases are already zero.
- Load.Encode: its own contract states only the header. Its length is stated
  by `Load.EncodeLength`, and that the whole file encodes the network by
  `Load.DecodeEncode` and `Load.DecodeExactly`.

## Findings

| source | as written | input that shows it | evidently intended | confidence | as-written member | corrected member |
|---|---|---|---|---|---|---|
| neuralnet.go:63-70 | FeedForward multiplies by each weight matrix and applies the sigmoid, but never adds the biases, unlike the forward pass used in training (sdg.go:77-79) | sizes [1, 1], weight 0, bias 1, input [0]: FeedForward returns [sigmoid(0)] = [0.5], training's forward pass computes [sigmoid(1)] | the output activation of the training forward pass, biases included | not executed | Sgd.FeedForwardDropsBias | Sgd.Predict |

=== FILE: activation.dfy ===
/** The logistic activation and its derivative.

    The library computes Sigmoid(x) = 1 / (1 + e^-x) in float64. The model
    does not fix the function: every operation that applies it takes it as
    a parameter `sigmoid`, so each property proved holds for any choice. */
module Activation {

  /** SigmoidDiff: the derivative of the sigmoid expressed through the
      sigmoid itself, s * (1 - s) with s = sigmoid(x). It vanishes where
      the sigmoid saturates at 0 or 1; SigmoidDiffBounds states the rest. */
  function SigmoidDiff(sigmoid: real -> real, x: real): (r: real)
    ensures sigmoid(x) == 0.0 || sigmoid(x) == 1.0 ==> r == 0.0
  {
    var s := sigmoid(x);
    s * (1.0 - s)
  }

  /** When s = sigmoid(x) lies strictly between 0 and 1, as the logistic
      function's values do, the derivative is positive and at most 1/4; it
      vanishes exactly when s is 0 or 1; and it is s - s^2. */
  lemma SigmoidDiffBounds(sigmoid: real -> real, x: real)
    ensures var r := SigmoidDiff(sigmoid, x);
      && (0.0 < sigmoid(x) < 1.0 ==> 0.0 < r <= 0.25)
      && (r == 0.0 <==> sigmoid(x) == 0.0 || sigmoid(x) == 1.0)
      && r + sigmoid(x) * sigmoid(x) == sigmoid(x)
  {
    Derivative(sigmoid(x), SigmoidDiff(sigmoid, x));
  }

  /** The facts about r = s (1 - s) behind SigmoidDiffBounds. */
  lemma Derivative(s: real, r: real)
    requires r == s * (1.0 - s)
    ensures 0.0 < s < 1.0 ==> 0.0 < r <= 0.25
    ensures r == 0.0 <==> s == 0.0 || s == 1.0
    ensures r + s * s == s
  {
    var t := 1.0 - s;
    assert s * t + s * s == s * (t + s);
    assert 0.25 - s * t == (s - 0.5) * (s - 0.5) by {
      assert (s - 0.5) * (s - 0.5) == s * s - s + 0.25;
    }
    Square(s - 0.5);
    if 0.0 < s < 1.0 {
      Positive(s, t);
    }
    if s * t == 0.0 {
      ZeroProduct(s, t);
    }
  }

  lemma Square(a: real)
    ensures a * a >= 0.0
  {
    if a < 0.0 {
      assert a * a == (-a) * (-a);
      Positive(-a, -a);
    } else if a > 0.0 {
      Positive(a, a);
    }
  }

  lemma Positive(a: real, b: real)
    requires a > 0.0 && b > 0.0
    ensures a * b > 0.0
  {
  }

  lemma ZeroProduct(a: real, b: real)
    requires a * b == 0.0
    ensures a == 0.0 || b == 0.0
  {
    if a != 0.0 {
      assert b == (a * b) / a;
    }
  }
}

=== FILE: linearalg.dfy ===
/** Vector and matrix primitives of the network (linearalg.go).

    A vector is a sequence of reals, a matrix a sequence of row vectors and
    a tensor a sequence of matrices (one per weighted layer). float64
    rounding is not modelled. The source signals dimension errors in two
    ways, and so does the model: the functions that panic explicitly
    (addVects, subVects, addVectOfVects, addVectOfMats) return a Result that
    fails with ShapeMismatch; the ones that rely on Go's index checks state
    what they index as a precondition. */
module LinearAlg {
  import opened Results
  import opened Activation

  type Vector = seq<real>
  type Matrix = seq<Vector>
  type Tensor = seq<Matrix>

  // ---------------------------------------------------------------------
  // Shapes and sums

  /** m has `rows` rows of `cols` entries each. */
  predicate IsMatrix<T>(m: seq<seq<T>>, rows: nat, cols: nat) {
    |m| == rows && forall i :: 0 <= i < |m| ==> |m[i]| == cols
  }

  /** x and y have the same number of rows, row by row of the same length. */
  predicate SameShape<T>(x: seq<seq<T>>, y: seq<seq<T>>) {
    |x| == |y| && forall i :: 0 <= i < |x| ==> |x[i]| == |y[i]|
  }

  /** x and y hold the same number of matrices, layer by layer of the same shape. */
  predicate SameShapes<T>(x: seq<seq<seq<T>>>, y: seq<seq<seq<T>>>) {
    |x| == |y| && forall i :: 0 <= i < |x| ==> SameShape(x[i], y[i])
  }

  /** Every row of m has at least n entries. */
  predicate RowsAtLeast(m: Matrix, n: nat) {
    forall i :: 0 <= i < |m| ==> n <= |m[i]|
  }

  /** The sum of u[j] * v[j] over j < n, accumulated with increasing j. */
  function Dot(u: Vector, v: Vector, n: nat): real
    requires n <= |u| && n <= |v|
  {
    if n == 0 then 0.0 else Dot(u, v, n - 1) + u[n - 1] * v[n - 1]
  }

  /** The sum of m[j][col] * v[j] over j < n, accumulated with increasing j. */
  function ColumnDot(m: Matrix, col: nat, v: Vector, n: nat): real
    requires n <= |m| && n <= |v|
    requires forall j :: 0 <= j < n ==> col < |m[j]|
  {
    if n == 0 then 0.0 else ColumnDot(m, col, v, n - 1) + m[n - 1][col] * v[n - 1]
  }

  // ---------------------------------------------------------------------
  // Products

  /** multMatrixVect: entry i is the sum over j < len(v) of m[i][j] * v[j].
      Only the first len(v) entries of a row take part, so a row longer
      than v is silently truncated; a shorter row would be indexed past
      its end, which the precondition rules out. */
  function MultMatrixVect(m: Matrix, v: Vector): (r: Vector)
    requires RowsAtLeast(m, |v|)
    ensures |r| == |m|
    ensures forall i :: 0 <= i < |m| ==> r[i] == Dot(m[i], v, |v|)
  {
    seq(|m|, i requires 0 <= i < |m| => Dot(m[i], v, |v|))
  }

  /** The transpose of a matrix whose rows have at least |m[0]| entries. */
  function Transpose(m: Matrix): (t: Matrix)
    requires |m| > 0 && RowsAtLeast(m, |m[0]|)
    ensures IsMatrix(t, |m[0]|, |m|)
    ensures forall i, j :: 0 <= i < |m[0]| && 0 <= j < |m| ==> t[i][j] == m[j][i]
  {
    seq(|m[0]|, i requires 0 <= i < |m[0]| => seq(|m|, j requires 0 <= j < |m| => m[j][i]))
  }

  /** multTransposeMatVector: the product of m's transpose with v. The
      source takes the column count from m[0] (so m must have a row) and,
      for each column, runs over all len(m) rows reading v[j] for each of
      them. With no column nothing is read and the result is empty,
      however short v is. */
  function MultTransposeMatVector(m: Matrix, v: Vector): (r: Vector)
    requires |m| > 0 && RowsAtLeast(m, |m[0]|) && (|m[0]| == 0 || |v| >= |m|)
    ensures |r| == |m[0]|
    ensures forall i :: 0 <= i < |m[0]| ==> r[i] == ColumnDot(m, i, v, |m|)
  {
    seq(|m[0]|, i requires 0 <= i < |m[0]| => ColumnDot(m, i, v, |m|))
  }

  /** hadamardProdVect: the entrywise product over v1's indices; v2 must be
      at least as long, and its extra entries are ignored. */
  function HadamardProdVect(v1: Vector, v2: Vector): (r: Vector)
    requires |v2| >= |v1|
    ensures |r| == |v1|
    ensures forall i :: 0 <= i < |v1| ==> r[i] == v1[i] * v2[i]
  {
    seq(|v1|, i requires 0 <= i < |v1| => v1[i] * v2[i])
  }

  /** multVectTransposeVect: the outer product v1 v2^T, one row per entry
      of v1 and one column per entry of v2, with no constraint between the
      two lengths. */
  function MultVectTransposeVect(v1: Vector, v2: Vector): (r: Matrix)
    ensures IsMatrix(r, |v1|, |v2|)
    ensures forall i, j :: 0 <= i < |v1| && 0 <= j < |v2| ==> r[i][j] == v1[i] * v2[j]
  {
    seq(|v1|, i requires 0 <= i < |v1| => seq(|v2|, j requires 0 <= j < |v2| => v1[i] * v2[j]))
  }

  // ---------------------------------------------------------------------
  // Elementwise operations

  /** subVects: v1 - v2 entry by entry; fails exactly when the lengths differ. */
  function SubVects(v1: Vector, v2: Vector): (r: Result<Vector>)
    ensures r.Success? <==> |v1| == |v2|
    ensures r.Failure? ==> r.error == ShapeMismatch
    ensures r.Success? ==> |r.value| == |v1| && forall i :: 0 <= i < |v1| ==> r.value[i] == v1[i] - v2[i]
  {
    if |v1| != |v2| then Failure(ShapeMismatch)
    else Success(seq(|v1|, i requires 0 <= i < |v1| => v1[i] - v2[i]))
  }

  /** addVects: v1 + v2 entry by entry; fails exactly when the lengths differ. */
  function AddVects(v1: Vector, v2: Vector): (r: Result<Vector>)
    ensures r.Success? <==> |v1| == |v2|
    ensures r.Failure? ==> r.error == ShapeMismatch
    ensures r.Success? ==> |r.value| == |v1| && forall i :: 0 <= i < |v1| ==> r.value[i] == v1[i] + v2[i]
  {
    if |v1| != |v2| then Failure(ShapeMismatch)
    else Success(seq(|v1|, i requires 0 <= i < |v1| => v1[i] + v2[i]))
  }

  /** multScalarVect: x * v, same length as v. */
  function MultScalarVect(x: real, v: Vector): (r: Vector)
    ensures |r| == |v|
    ensures forall i :: 0 <= i < |v| ==> r[i] == x * v[i]
  {
    seq(|v|, i requires 0 <= i < |v| => x * v[i])
  }

  /** sigmoidVect: the sigmoid applied to every entry, in a fresh vector. */
  function SigmoidVect(sigmoid: real -> real, v: Vector): (r: Vector)
    ensures |r| == |v|
    ensures forall i :: 0 <= i < |v| ==> r[i] == sigmoid(v[i])
  {
    seq(|v|, i requires 0 <= i < |v| => sigmoid(v[i]))
  }

  /** sigmoidDiffVector: the sigmoid's derivative applied to every entry. */
  function SigmoidDiffVector(sigmoid: real -> real, v: Vector): (r: Vector)
    ensures |r| == |v|
    ensures forall i :: 0 <= i < |v| ==> r[i] == SigmoidDiff(sigmoid, v[i])
  {
    seq(|v|, i requires 0 <= i < |v| => SigmoidDiff(sigmoid, v[i]))
  }

  /** Each entry of sigmoidDiffVector is s * (1 - s) for s the sigmoid of
      the input entry, and lies in (0, 1/4] whenever that s lies strictly
      between 0 and 1. */
  lemma SigmoidDiffVectorBounds(sigmoid: real -> real, v: Vector)
    ensures var r := SigmoidDiffVector(sigmoid, v);
      && (forall i :: 0 <= i < |v| ==> r[i] + sigmoid(v[i]) * sigmoid(v[i]) == sigmoid(v[i]))
      && (forall i :: 0 <= i < |v| && 0.0 < sigmoid(v[i]) < 1.0 ==> 0.0 < r[i] <= 0.25)
  {
    forall i | 0 <= i < |v|
      ensures SigmoidDiffVector(sigmoid, v)[i] + sigmoid(v[i]) * sigmoid(v[i]) == sigmoid(v[i])
      ensures 0.0 < sigmoid(v[i]) < 1.0 ==> 0.0 < SigmoidDiffVector(sigmoid, v)[i] <= 0.25
    {
      SigmoidDiffBounds(sigmoid, v[i]);
    }
  }

  /** applySigmoidVector: the sigmoid applied in place, entry by entry. */
  method ApplySigmoidVector(v: array<real>, sigmoid: real -> real)
    modifies v
    ensures v[..] == SigmoidVect(sigmoid, old(v[..]))
  {
    var i := 0;
    while i < v.Length
      invariant 0 <= i <= v.Length
      invariant forall k :: 0 <= k < i ==> v[k] == sigmoid(old(v[k]))
      invariant forall k :: i <= k < v.Length ==> v[k] == old(v[k])
    {
      v[i] := sigmoid(v[i]);
      i := i + 1;
    }
  }

  /** addVectOfVects: the entrywise sum of two matrices. It fails when the
      row counts differ or when any pair of rows differs in length (each
      row pair is checked as addVects checks its operands). */
  function AddVectOfVects(x: Matrix, y: Matrix): (r: Result<Matrix>)
    ensures r.Success? <==> SameShape(x, y)
    ensures r.Failure? ==> r.error == ShapeMismatch
    ensures r.Success? ==> SameShape(r.value, x)
    ensures r.Success? ==> forall i, j :: 0 <= i < |x| && 0 <= j < |x[i]| ==> r.value[i][j] == x[i][j] + y[i][j]
    decreases |x|
  {
    if |x| != |y| then Failure(ShapeMismatch)
    else if |x| == 0 then Success([])
    else
      var head :- AddVects(x[0], y[0]);
      var tail :- AddVectOfVects(x[1..], y[1..]);
      assert forall i :: 1 <= i < |x| ==> x[1..][i - 1] == x[i] && y[1..][i - 1] == y[i];
      Success([head] + tail)
  }

  /** addVectOfMats: layer-wise addVectOfVects over two sequences of
      matrices. It fails when the layer counts differ or any layer pair
      fails to add. */
  function AddVectOfMats(x: Tensor, y: Tensor): (r: Result<Tensor>)
    ensures r.Success? <==> SameShapes(x, y)
    ensures r.Failure? ==> r.error == ShapeMismatch
    ensures r.Success? ==> |r.value| == |x| && forall i :: 0 <= i < |x| ==> AddVectOfVects(x[i], y[i]) == Success(r.value[i])
    ensures r.Success? ==> SameShapes(r.value, x)
    decreases |x|
  {
    if |x| != |y| then Failure(ShapeMismatch)
    else if |x| == 0 then Success([])
    else
      var head :- AddVectOfVects(x[0], y[0]);
      var tail :- AddVectOfMats(x[1..], y[1..]);
      assert forall i :: 1 <= i < |x| ==> x[1..][i - 1] == x[i] && y[1..][i - 1] == y[i];
      Success([head] + tail)
  }

  // ---------------------------------------------------------------------
  // Properties

  /** Dot only reads the first n entries of its operands. */
  lemma {:induction false} DotPrefix(u: Vector, v: Vector, u': Vector, v': Vector, n: nat)
    requires n <= |u| && n <= |v| && n <= |u'| && n <= |v'|
    requires u[..n] == u'[..n] && v[..n] == v'[..n]
    ensures Dot(u, v, n) == Dot(u', v', n)
  {
    if n > 0 {
      assert u[..n - 1] == u'[..n - 1] && v[..n - 1] == v'[..n - 1];
      assert u[n - 1] == u[..n][n - 1] && u'[n - 1] == u'[..n][n - 1];
      assert v[n - 1] == v[..n][n - 1] && v'[n - 1] == v'[..n][n - 1];
      DotPrefix(u, v, u', v', n - 1);
    }
  }

  /** Appending zeros to v does not change Dot over the longer range. */
  lemma {:induction false} DotZeroTail(u: Vector, v: Vector, z: Vector, k: nat)
    requires k <= |z| && |v| + k <= |u|
    requires forall i :: 0 <= i < |z| ==> z[i] == 0.0
    ensures Dot(u, v + z, |v| + k) == Dot(u, v, |v|)
  {
    if k == 0 {
      assert (v + z)[..|v|] == v[..|v|];
      DotPrefix(u, v + z, u, v, |v|);
    } else {
      assert (v + z)[|v| + k - 1] == z[k - 1];
      DotZeroTail(u, v, z, k - 1);
    }
  }

  /** The silent truncation of multMatrixVect reads as zero padding: an
      input vector followed by zeros gives the same product as the input
      alone. */
  lemma MultMatrixVectZeroPadding(m: Matrix, v: Vector, z: Vector)
    requires RowsAtLeast(m, |v| + |z|)
    requires forall i :: 0 <= i < |z| ==> z[i] == 0.0
    ensures MultMatrixVect(m, v + z) == MultMatrixVect(m, v)
  {
    forall i | 0 <= i < |m|
      ensures Dot(m[i], v + z, |v + z|) == Dot(m[i], v, |v|)
    {
      DotZeroTail(m[i], v, z, |z|);
    }
  }

  /** Summing a column of m against v is the dot product of the
      corresponding row of m's transpose with v. */
  lemma {:induction false} ColumnDotIsTransposedDot(m: Matrix, v: Vector, i: nat, n: nat)
    requires |m| > 0 && RowsAtLeast(m, |m[0]|) && i < |m[0]|
    requires n <= |m| && |v| >= |m|
    ensures ColumnDot(m, i, v, n) == Dot(Transpose(m)[i], v[..|m|], n)
  {
    if n > 0 {
      ColumnDotIsTransposedDot(m, v, i, n - 1);
    }
  }

  /** multTransposeMatVector agrees with multiplying the explicit
      transpose by the first len(m) entries of v. */
  lemma MultTransposeMatVectorIsTransposedProduct(m: Matrix, v: Vector)
    requires |m| > 0 && |v| >= |m| && RowsAtLeast(m, |m[0]|)
    ensures MultTransposeMatVector(m, v) == MultMatrixVect(Transpose(m), v[..|m|])
  {
    forall i | 0 <= i < |m[0]|
      ensures ColumnDot(m, i, v, |m|) == Dot(Transpose(m)[i], v[..|m|], |m|)
    {
      ColumnDotIsTransposedDot(m, v, i, |m|);
    }
  }

  /** Adding back what was subtracted restores the original vector. */
  lemma AddSubInverse(a: Vector, b: Vector)
    requires |a| == |b|
    ensures SubVects(a, b).Success?
    ensures AddVects(SubVects(a, b).value, b) == Success(a)
  {
    var d := SubVects(a, b).value;
    assert AddVects(d, b).value == a;
  }

  /** The entrywise sum of matrices does not depend on operand order. */
  lemma AddVectOfVectsCommutes(x: Matrix, y: Matrix)
    ensures AddVectOfVects(x, y) == AddVectOfVects(y, x)
  {
    if SameShape(x, y) {
      var a, b := AddVectOfVects(x, y).value, AddVectOfVects(y, x).value;
      forall i | 0 <= i < |x|
        ensures a[i] == b[i]
      {
        forall j | 0 <= j < |x[i]|
          ensures a[i][j] == b[i][j]
        {
          assert a[i][j] == x[i][j] + y[i][j] && b[i][j] == y[i][j] + x[i][j];
        }
      }
      assert a == b;
    } else {
      assert !SameShape(y, x);
    }
  }

  /** The layer-wise sum of weight tensors does not depend on operand
      order, so per-sample deltas may be accumulated in any order. */
  lemma AddVectOfMatsCommutes(x: Tensor, y: Tensor)
    ensures AddVectOfMats(x, y) == AddVectOfMats(y, x)
  {
    if SameShapes(x, y) {
      var a, b := AddVectOfMats(x, y).value, AddVectOfMats(y, x).value;
      forall i | 0 <= i < |x|
        ensures a[i] == b[i]
      {
        AddVectOfVectsCommutes(x[i], y[i]);
      }
    }
  }

  /** Regrouping a three-way sum of matrices gives the same result. */
  lemma AddVectOfVectsAssociates(x: Matrix, y: Matrix, z: Matrix)
    requires SameShape(x, y) && SameShape(y, z)
    ensures AddVectOfVects(AddVectOfVects(x, y).value, z) == AddVectOfVects(x, AddVectOfVects(y, z).value)
  {
    var l := AddVectOfVects(AddVectOfVects(x, y).value, z).value;
    var r := AddVectOfVects(x, AddVectOfVects(y, z).value).value;
    forall i | 0 <= i < |x|
      ensures l[i] == r[i]
    {
      assert |l[i]| == |r[i]|;
    }
  }

  /** Regrouping a three-way sum of weight tensors gives the same result. */
  lemma AddVectOfMatsAssociates(x: Tensor, y: Tensor, z: Tensor)
    requires SameShapes(x, y) && SameShapes(y, z)
    ensures AddVectOfMats(AddVectOfMats(x, y).value, z) == AddVectOfMats(x, AddVectOfMats(y, z).value)
  {
    var xy := AddVectOfMats(x, y).value;
    var yz := AddVectOfMats(y, z).value;
    var l := AddVectOfMats(xy, z).value;
    var r := AddVectOfMats(x, yz).value;
    forall i | 0 <= i < |x|
      ensures l[i] == r[i]
    {
      AddVectOfVectsAssociates(x[i], y[i], z[i]);
    }
  }

  /** On vectors of the same length the entrywise product does not depend
      on operand order. */
  lemma HadamardProdVectCommutes(v1: Vector, v2: Vector)
    requires |v1| == |v2|
    ensures HadamardProdVect(v1, v2) == HadamardProdVect(v2, v1)
  {
  }

  /** Swapping the operands of the outer product transposes it. */
  lemma MultVectTransposeVectSwap(v1: Vector, v2: Vector)
    requires |v1| > 0
    ensures Transpose(MultVectTransposeVect(v1, v2)) == MultVectTransposeVect(v2, v1)
  {
    var t := Transpose(MultVectTransposeVect(v1, v2));
    var s := MultVectTransposeVect(v2, v1);
    forall i | 0 <= i < |v2|
      ensures t[i] == s[i]
    {
      forall j | 0 <= j < |v1|
        ensures t[i][j] == s[i][j]
      {
        assert t[i][j] == v1[j] * v2[i];
      }
    }
  }

  /** Scaling by y and then by x scales by x * y. */
  lemma MultScalarVectComposes(x: real, y: real, v: Vector)
    ensures MultScalarVect(x, MultScalarVect(y, v)) == MultScalarVect(x * y, v)
  {
    var l, r := MultScalarVect(x, MultScalarVect(y, v)), MultScalarVect(x * y, v);
    forall i | 0 <= i < |v|
      ensures l[i] == r[i]
    {
      assert x * (y * v[i]) == (x * y) * v[i];
    }
  }

  // ---------------------------------------------------------------------
  // The worked values of linearalg_test.go

  lemma MultMatrixVectExamples()
    ensures MultMatrixVect([[2.0, 3.0, 5.0], [4.0, 9.0, 1.0]], [1.0, 2.0, 3.0]) == [23.0, 25.0]
    ensures MultMatrixVect([[0.0, 0.0], [4.0, 0.0]], [1.0, 1.0]) == [0.0, 4.0]
  {
    var m, v := [[2.0, 3.0, 5.0], [4.0, 9.0, 1.0]], [1.0, 2.0, 3.0];
    assert Dot(m[0], v, 1) == 2.0 && Dot(m[0], v, 2) == 8.0 && Dot(m[0], v, 3) == 23.0;
    assert Dot(m[1], v, 1) == 4.0 && Dot(m[1], v, 2) == 22.0 && Dot(m[1], v, 3) == 25.0;
    var m', v' := [[0.0, 0.0], [4.0, 0.0]], [1.0, 1.0];
    assert Dot(m'[0], v', 1) == 0.0 && Dot(m'[0], v', 2) == 0.0;
    assert Dot(m'[1], v', 1) == 4.0 && Dot(m'[1], v', 2) == 4.0;
  }

  lemma MultTransposeMatVectorExamples()
    ensures MultTransposeMatVector([[2.0, 3.0, 5.0], [4.0, 9.0, 1.0]], [1.0, 2.0]) == [10.0, 21.0, 7.0]
    ensures MultTransposeMatVector([[12.0, 1.0, -8.0], [6.0, -3.0, 2.0], [9.0, 0.0, -4.0]], [0.0, 4.0, -1.0])
         == [15.0, -12.0, 12.0]
    ensures MultTransposeMatVector([[]], []) == []
  {
    var m, v := [[2.0, 3.0, 5.0], [4.0, 9.0, 1.0]], [1.0, 2.0];
    assert ColumnDot(m, 0, v, 1) == 2.0 && ColumnDot(m, 0, v, 2) == 10.0;
    assert ColumnDot(m, 1, v, 1) == 3.0 && ColumnDot(m, 1, v, 2) == 21.0;
    assert ColumnDot(m, 2, v, 1) == 5.0 && ColumnDot(m, 2, v, 2) == 7.0;
    var m', v' := [[12.0, 1.0, -8.0], [6.0, -3.0, 2.0], [9.0, 0.0, -4.0]], [0.0, 4.0, -1.0];
    assert ColumnDot(m', 0, v', 1) == 0.0 && ColumnDot(m', 0, v', 2) == 24.0 && ColumnDot(m', 0, v', 3) == 15.0;
    assert ColumnDot(m', 1, v', 1) == 0.0 && ColumnDot(m', 1, v', 2) == -12.0 && ColumnDot(m', 1, v', 3) == -12.0;
    assert ColumnDot(m', 2, v', 1) == 0.0 && ColumnDot(m', 2, v', 2) == 8.0 && ColumnDot(m', 2, v', 3) == 12.0;
  }

  lemma HadamardProdVectExamples()
    ensures HadamardProdVect([2.0, 3.0, 5.0], [1.0, 2.0, 12.0]) == [2.0, 6.0, 60.0]
    ensures HadamardProdVect([-1.0, 4.0, 5.0, 102.0], [0.0, 3.0, 13.0, -1.0]) == [0.0, 12.0, 65.0, -102.0]
  {
  }

  lemma MultVectTransposeVectExamples()
    ensures MultVectTransposeVect([2.0, 3.0, 5.0], [1.0, 2.0]) == [[2.0, 4.0], [3.0, 6.0], [5.0, 10.0]]
    ensures MultVectTransposeVect([-1.0, 2.0], [1.0, 4.0, 5.0, 9.0]) == [[-1.0, -4.0, -5.0, -9.0], [2.0, 8.0, 10.0, 18.0]]
    ensures MultVectTransposeVect([-1.0], [1.0]) == [[-1.0]]
  {
    var r := MultVectTransposeVect([2.0, 3.0, 5.0], [1.0, 2.0]);
    assert r[0] == [2.0, 4.0] && r[1] == [3.0, 6.0] && r[2] == [5.0, 10.0];
    var r' := MultVectTransposeVect([-1.0, 2.0], [1.0, 4.0, 5.0, 9.0]);
    assert r'[0] == [-1.0, -4.0, -5.0, -9.0] && r'[1] == [2.0, 8.0, 10.0, 18.0];
    var r'' := MultVectTransposeVect([-1.0], [1.0]);
    assert r''[0] == [-1.0];
  }

  lemma AddVectOfVectsExample()
    ensures AddVectOfVects([[2.0, 4.0], [3.0, 6.0], [5.0, 10.0]], [[9.0, 1.0], [3.0, 1223.0], [5.0, -23.0]])
         == Success([[11.0, 5.0], [6.0, 1229.0], [10.0, -13.0]])
  {
    var x, y := [[2.0, 4.0], [3.0, 6.0], [5.0, 10.0]], [[9.0, 1.0], [3.0, 1223.0], [5.0, -23.0]];
    assert SameShape(x, y);
    var r := AddVectOfVects(x, y).value;
    assert |r| == 3 && |r[0]| == 2 && |r[1]| == 2 && |r[2]| == 2;
    assert r[0][0] == 11.0 && r[0][1] == 5.0 && r[1][0] == 6.0 && r[1][1] == 1229.0;
    assert r[2][0] == 10.0 && r[2][1] == -13.0;
    assert r[0] == [11.0, 5.0] && r[1] == [6.0, 1229.0] && r[2] == [10.0, -13.0];
    assert r == [[11.0, 5.0], [6.0, 1229.0], [10.0, -13.0]];
  }
}

=== FILE: load.dfy ===
/** The network file format (load.go).

    A file is, in big-endian order: the number of layers n as an int32,
    the n layer sizes as int32s, every weight as a float64 (layer by
    layer, row by row) and then every bias as a float64. SaveFile writes
    it and LoadFile reads it back. A float64 is carried as the 64 bits
    binary.Write stores, so parameters here are of type Word64 and the
    real arithmetic of training plays no part. The file itself is a byte
    sequence: opening, creating and closing it are left to the caller. */
module Load {
  import opened Results
  import opened LinearAlg
  import opened NeuralNet

  /** One byte of the file. */
  newtype byte = x: int | 0 <= x < 256

  const Two31: int := 0x8000_0000
  const Two32: int := 0x1_0000_0000
  const Two64: int := 0x1_0000_0000_0000_0000

  /** The 64 bits of a float64. */
  type Word64 = x: int | 0 <= x < Two64

  // ---------------------------------------------------------------------
  // Big-endian integers

  /** 256 to the power n. */
  function Pow256(n: nat): (p: nat)
    ensures p > 0
  {
    if n == 0 then 1 else 256 * Pow256(n - 1)
  }

  /** The n low-order bytes of x, most significant first. */
  function BigEndian(x: nat, n: nat): (b: seq<byte>)
    ensures |b| == n
  {
    if n == 0 then [] else BigEndian(x / 256, n - 1) + [(x % 256) as byte]
  }

  /** The number a big-endian byte sequence spells. */
  function Value(b: seq<byte>): (v: nat)
    ensures v < Pow256(|b|)
  {
    if |b| == 0 then 0 else Value(b[..|b| - 1]) * 256 + b[|b| - 1] as int
  }

  /** Spelling a number that fits in n bytes and reading it back gives the number. */
  lemma {:induction false} ValueBigEndian(x: nat, n: nat)
    requires x < Pow256(n)
    ensures Value(BigEndian(x, n)) == x
  {
    if n > 0 {
      var b := BigEndian(x, n);
      assert b[..n - 1] == BigEndian(x / 256, n - 1);
      assert Pow256(n) == 256 * Pow256(n - 1);
      assert x / 256 < Pow256(n - 1);
      ValueBigEndian(x / 256, n - 1);
      assert b[n - 1] as int == x % 256;
    }
  }

  /** Reading bytes as a number and spelling it back gives the bytes. */
  lemma {:induction false} BigEndianValue(b: seq<byte>)
    ensures BigEndian(Value(b), |b|) == b
  {
    if |b| > 0 {
      var p := b[..|b| - 1];
      BigEndianValue(p);
      var v := Value(b);
      assert v / 256 == Value(p);
      assert (v % 256) as byte == b[|b| - 1];
      assert b == p + [b[|b| - 1]];
    }
  }

  // ---------------------------------------------------------------------
  // Scalars

  /** int32(x) as binary.Write stores it: the low 32 bits of x in two's
      complement, most significant byte first. */
  function EncodeInt32(x: int): (b: seq<byte>)
    ensures |b| == 4
  {
    BigEndian(x % Two32, 4)
  }

  /** The int32 binary.Read takes from four big-endian bytes. */
  function Int32Of(b: seq<byte>): (x: int)
    requires |b| == 4
    ensures -Two31 <= x < Two31
  {
    assert Pow256(4) == Two32;
    var u := Value(b);
    if u >= Two31 then u - Two32 else u
  }

  /** Writing int32(x) and reading it back wraps x into the int32 range,
      and so returns x itself exactly when x is in that range. */
  lemma Int32Wraps(x: int)
    ensures Int32Of(EncodeInt32(x)) == (x + Two31) % Two32 - Two31
    ensures -Two31 <= x < Two31 <==> Int32Of(EncodeInt32(x)) == x
  {
    assert Pow256(4) == Two32;
    var u := x % Two32;
    ValueBigEndian(u, 4);
    assert Int32Of(EncodeInt32(x)) == if u >= Two31 then u - Two32 else u;
    var q := x / Two32;
    assert x == q * Two32 + u;
    if u >= Two31 {
      ModUnique(x + Two31, q + 1, u + Two31 - Two32);
    } else {
      ModUnique(x + Two31, q, u + Two31);
    }
  }

  /** The remainder modulo 2^32 is the one r in [0, 2^32) with a = q 2^32 + r. */
  lemma ModUnique(a: int, q: int, r: int)
    requires a == q * Two32 + r && 0 <= r < Two32
    ensures a % Two32 == r
  {
    var q' := a / Two32;
    assert a == q' * Two32 + a % Two32;
    assert (q - q') * Two32 == a % Two32 - r;
  }

  /** Every four bytes are the encoding of the int32 they spell. */
  lemma Int32Bytes(b: seq<byte>)
    requires |b| == 4
    ensures EncodeInt32(Int32Of(b)) == b
  {
    assert Pow256(4) == Two32;
    BigEndianValue(b);
    assert Int32Of(b) % Two32 == Value(b);
  }

  /** The eight bytes binary.Write stores for a float64 with bits w. */
  function EncodeFloat64(w: Word64): (b: seq<byte>)
    ensures |b| == 8
  {
    BigEndian(w, 8)
  }

  /** The bits of the float64 binary.Read takes from eight big-endian bytes. */
  function Float64Of(b: seq<byte>): (w: Word64)
    requires |b| == 8
    ensures EncodeFloat64(w) == b
  {
    assert Pow256(8) == Two64;
    BigEndianValue(b);
    Value(b)
  }

  /** Writing a float64 and reading it back gives the same bits, and every
      eight bytes are the encoding of the bits they spell. */
  lemma Float64RoundTrip(w: Word64, b: seq<byte>)
    requires |b| == 8
    ensures Float64Of(EncodeFloat64(w)) == w
    ensures EncodeFloat64(Float64Of(b)) == b
  {
    assert Pow256(8) == Two64;
    ValueBigEndian(w, 8);
    BigEndianValue(b);
  }

  // ---------------------------------------------------------------------
  // Writing (SaveFile)

  /** Float64s one after the other. */
  function EncodeWords(ws: seq<Word64>): (b: seq<byte>)
    ensures |b| == 8 * |ws|
  {
    if |ws| == 0 then [] else EncodeFloat64(ws[0]) + EncodeWords(ws[1..])
  }

  /** The number of entries of a matrix, summed row by row. */
  function Entries(m: seq<seq<Word64>>): nat {
    if |m| == 0 then 0 else |m[0]| + Entries(m[1..])
  }

  /** The number of entries of a list of matrices. */
  function TensorEntries(t: seq<seq<seq<Word64>>>): nat {
    if |t| == 0 then 0 else Entries(t[0]) + TensorEntries(t[1..])
  }

  /** A matrix row by row: 8 bytes per entry. */
  function EncodeMatrix(m: seq<seq<Word64>>): (b: seq<byte>)
    ensures |b| == 8 * Entries(m)
  {
    if |m| == 0 then [] else EncodeWords(m[0]) + EncodeMatrix(m[1..])
  }

  /** Matrices one after the other: 8 bytes per entry. */
  function EncodeTensor(t: seq<seq<seq<Word64>>>): (b: seq<byte>)
    ensures |b| == 8 * TensorEntries(t)
  {
    if |t| == 0 then [] else EncodeMatrix(t[0]) + EncodeTensor(t[1..])
  }

  /** Layer sizes as int32s one after the other. */
  function EncodeSizes(sizes: seq<nat>): (b: seq<byte>)
    ensures |b| == 4 * |sizes|
  {
    if |sizes| == 0 then [] else EncodeInt32(sizes[0]) + EncodeSizes(sizes[1..])
  }

  /** SaveFile: the layer count, the sizes, the weights, then the biases. */
  function Encode(net: Network<Word64>): (b: seq<byte>)
    ensures |b| >= 4 * (|net.sizes| + 1)
    ensures b[..4 * (|net.sizes| + 1)] == EncodeInt32(|net.sizes|) + EncodeSizes(net.sizes)
  {
    var head := EncodeInt32(|net.sizes|) + EncodeSizes(net.sizes);
    var b := head + EncodeTensor(net.weights) + EncodeMatrix(net.biases);
    assert b[..|head|] == head;
    b
  }

  /** The networks whose file LoadFile reads back unchanged: well formed,
      with a layer count and sizes that int32 holds. */
  predicate Encodable(net: Network<Word64>) {
    && WellFormed(net)
    && |net.sizes| < Two31
    && forall i :: 0 <= i < |net.sizes| ==> net.sizes[i] < Two31
  }

  /** The number of weights of a network of these sizes: the sum of
      sizes[i] * sizes[i + 1] over its weighted layers. */
  function WeightCount(sizes: seq<nat>): nat {
    if |sizes| < 2 then 0 else sizes[0] * sizes[1] + WeightCount(sizes[1..])
  }

  /** The number of biases of a network of these sizes: the sum of every
      size but the first. */
  function BiasCount(sizes: seq<nat>): nat {
    if |sizes| < 2 then 0 else sizes[1] + BiasCount(sizes[1..])
  }

  /** A rows x cols matrix takes 8 bytes per entry. */
  lemma {:induction false} EncodeMatrixLength(m: seq<seq<Word64>>, rows: nat, cols: nat)
    requires IsMatrix(m, rows, cols)
    ensures |EncodeMatrix(m)| == 8 * (rows * cols)
  {
    if rows > 0 {
      assert IsMatrix(m[1..], rows - 1, cols) by {
        assert forall i :: 0 <= i < rows - 1 ==> m[1..][i] == m[i + 1];
      }
      EncodeMatrixLength(m[1..], rows - 1, cols);
      assert |EncodeWords(m[0])| == 8 * cols;
      assert (rows - 1) * cols + cols == rows * cols by {
        assert (rows - 1) * cols == rows * cols - cols;
      }
    }
  }

  /** Weight matrices shaped by the sizes take 8 bytes per weight. */
  lemma {:induction false} EncodeWeightsLength(sizes: seq<nat>, w: seq<seq<seq<Word64>>>)
    requires WeightsFit(sizes, w)
    ensures |EncodeTensor(w)| == 8 * WeightCount(sizes)
    decreases |sizes|
  {
    if |sizes| >= 2 {
      EncodeMatrixLength(w[0], sizes[1], sizes[0]);
      WeightsFitTail(sizes, w);
      EncodeWeightsLength(sizes[1..], w[1..]);
      assert sizes[0] * sizes[1] == sizes[1] * sizes[0];
    }
  }

  /** Bias vectors shaped by the sizes take 8 bytes per bias. */
  lemma {:induction false} EncodeBiasesLength(sizes: seq<nat>, b: seq<seq<Word64>>)
    requires BiasesFit(sizes, b)
    ensures |EncodeMatrix(b)| == 8 * BiasCount(sizes)
    decreases |sizes|
  {
    if |sizes| >= 2 {
      BiasesFitTail(sizes, b);
      EncodeBiasesLength(sizes[1..], b[1..]);
    }
  }

  /** A saved file is 4 bytes of layer count, 4 bytes per size, then 8
      bytes per weight and per bias. */
  lemma EncodeLength(net: Network<Word64>)
    requires WellFormed(net)
    ensures |Encode(net)| == 4 + 4 * |net.sizes| + 8 * (WeightCount(net.sizes) + BiasCount(net.sizes))
  {
    assert WeightsFit(net.sizes, net.weights);
    assert BiasesFit(net.sizes, net.biases);
    EncodeWeightsLength(net.sizes, net.weights);
    EncodeBiasesLength(net.sizes, net.biases);
  }

  // ---------------------------------------------------------------------
  // Reading (LoadFile)

  /** A value read from the front of a byte stream, and what follows it. */
  datatype Read<T> = Read(value: T, rest: seq<byte>)

  /** The reading failed because the stream ended. */
  predicate Truncated<T>(r: Result<T>) {
    r.Failure? && (r.error == EOF || r.error == UnexpectedEOF)
  }

  /** The n bytes binary.Read takes for one value (io.ReadFull): EOF when
      the stream is already at its end, UnexpectedEOF when it ends part-way. */
  function ReadFull(s: seq<byte>, n: nat): (r: Result<Read<seq<byte>>>)
    requires n > 0
    ensures r.Success? <==> |s| >= n
    ensures r.Failure? ==> r.error == (if |s| == 0 then EOF else UnexpectedEOF)
    ensures r.Success? ==> |r.value.value| == n && s == r.value.value + r.value.rest
  {
    if |s| == 0 then Failure(EOF)
    else if |s| < n then Failure(UnexpectedEOF)
    else Success(Read(s[..n], s[n..]))
  }

  /** One int32: needs four bytes, fails as ReadFull does. */
  function ReadInt32(s: seq<byte>): (r: Result<Read<int>>)
    ensures r.Success? <==> |s| >= 4
    ensures r.Failure? ==> r.error == (if |s| == 0 then EOF else UnexpectedEOF)
    ensures r.Success? ==> -Two31 <= r.value.value < Two31 && s == EncodeInt32(r.value.value) + r.value.rest
  {
    var b :- ReadFull(s, 4);
    Int32Bytes(b.value);
    Success(Read(Int32Of(b.value), b.rest))
  }

  /** One float64: needs eight bytes, fails as ReadFull does. */
  function ReadFloat64(s: seq<byte>): (r: Result<Read<Word64>>)
    ensures r.Success? <==> |s| >= 8
    ensures r.Failure? ==> r.error == (if |s| == 0 then EOF else UnexpectedEOF)
    ensures r.Success? ==> s == EncodeFloat64(r.value.value) + r.value.rest
  {
    var b :- ReadFull(s, 8);
    Float64RoundTrip(0, b.value);
    Success(Read(Float64Of(b.value), b.rest))
  }

  /** n float64s: succeeds exactly when 8n bytes are there. */
  function ReadWords(s: seq<byte>, n: nat): (r: Result<Read<seq<Word64>>>)
    ensures r.Success? <==> |s| >= 8 * n
    ensures r.Failure? ==> Truncated(r)
    ensures r.Success? ==> |r.value.value| == n && s == EncodeWords(r.value.value) + r.value.rest
    decreases n
  {
    if n == 0 then Success(Read([], s))
    else
      var first :- ReadFloat64(s);
      var more :- ReadWords(first.rest, n - 1);
      var ws := [first.value] + more.value;
      assert ws[1..] == more.value;
      Success(Read(ws, more.rest))
  }

  /** A rows x cols matrix, row by row. */
  function ReadMatrix(s: seq<byte>, rows: nat, cols: nat): (r: Result<Read<seq<seq<Word64>>>>)
    ensures r.Failure? ==> Truncated(r)
    ensures r.Success? ==> IsMatrix(r.value.value, rows, cols) && s == EncodeMatrix(r.value.value) + r.value.rest
    decreases rows
  {
    if rows == 0 then Success(Read([], s))
    else
      var first :- ReadWords(s, cols);
      var more :- ReadMatrix(first.rest, rows - 1, cols);
      var m := [first.value] + more.value;
      assert m[1..] == more.value;
      assert EncodeMatrix(m) == EncodeWords(first.value) + EncodeMatrix(more.value);
      Concat3(EncodeWords(first.value), EncodeMatrix(more.value), more.rest);
      assert forall i :: 1 <= i < |m| ==> m[i] == more.value[i - 1];
      Success(Read(m, more.rest))
  }

  /** Layer sizes are shaped as a network of these sizes needs them. */
  predicate WeightsFit(sizes: seq<nat>, w: seq<seq<seq<Word64>>>) {
    && |w| == (if |sizes| == 0 then 0 else |sizes| - 1)
    && forall i :: 0 <= i < |w| ==> IsMatrix(w[i], sizes[i + 1], sizes[i])
  }

  /** Bias vectors shaped as a network of these sizes needs them. */
  predicate BiasesFit(sizes: seq<nat>, b: seq<seq<Word64>>) {
    && |b| == (if |sizes| == 0 then 0 else |sizes| - 1)
    && forall i :: 0 <= i < |b| ==> |b[i]| == sizes[i + 1]
  }

  /** The weight matrices of a network of the given sizes, in file order. */
  function ReadWeights(s: seq<byte>, sizes: seq<nat>): (r: Result<Read<seq<seq<seq<Word64>>>>>)
    ensures r.Failure? ==> Truncated(r)
    ensures r.Success? ==> WeightsFit(sizes, r.value.value) && s == EncodeTensor(r.value.value) + r.value.rest
    decreases |sizes|
  {
    if |sizes| < 2 then Success(Read([], s))
    else
      var first :- ReadMatrix(s, sizes[1], sizes[0]);
      var more :- ReadWeights(first.rest, sizes[1..]);
      var w := [first.value] + more.value;
      assert w[1..] == more.value;
      assert EncodeTensor(w) == EncodeMatrix(first.value) + EncodeTensor(more.value);
      Concat3(EncodeMatrix(first.value), EncodeTensor(more.value), more.rest);
      WeightsFitCons(sizes, first.value, more.value);
      Success(Read(w, more.rest))
  }

  /** A first weight matrix shaped for the first two sizes, followed by
      matrices that fit the sizes from the second one on, fits the sizes. */
  lemma WeightsFitCons(sizes: seq<nat>, m: seq<seq<Word64>>, more: seq<seq<seq<Word64>>>)
    requires |sizes| >= 2 && IsMatrix(m, sizes[1], sizes[0]) && WeightsFit(sizes[1..], more)
    ensures WeightsFit(sizes, [m] + more)
  {
    var w := [m] + more;
    forall i | 0 <= i < |w|
      ensures IsMatrix(w[i], sizes[i + 1], sizes[i])
    {
      if i > 0 {
        assert w[i] == more[i - 1] && sizes[i] == sizes[1..][i - 1] && sizes[i + 1] == sizes[1..][i];
      }
    }
  }

  /** The same for bias vectors. */
  lemma BiasesFitCons(sizes: seq<nat>, v: seq<Word64>, more: seq<seq<Word64>>)
    requires |sizes| >= 2 && |v| == sizes[1] && BiasesFit(sizes[1..], more)
    ensures BiasesFit(sizes, [v] + more)
  {
    var b := [v] + more;
    forall i | 0 <= i < |b|
      ensures |b[i]| == sizes[i + 1]
    {
      if i > 0 {
        assert b[i] == more[i - 1] && sizes[i + 1] == sizes[1..][i];
      }
    }
  }

  /** Sequence concatenation is associative. */
  lemma Concat3<T>(a: seq<T>, b: seq<T>, c: seq<T>)
    ensures a + (b + c) == a + b + c
  {
  }

  /** The bias vectors of a network of the given sizes, in file order. */
  function ReadBiases(s: seq<byte>, sizes: seq<nat>): (r: Result<Read<seq<seq<Word64>>>>)
    ensures r.Failure? ==> Truncated(r)
    ensures r.Success? ==> BiasesFit(sizes, r.value.value) && s == EncodeMatrix(r.value.value) + r.value.rest
    decreases |sizes|
  {
    if |sizes| < 2 then Success(Read([], s))
    else
      var first :- ReadWords(s, sizes[1]);
      var more :- ReadBiases(first.rest, sizes[1..]);
      var b := [first.value] + more.value;
      assert b[1..] == more.value;
      assert EncodeMatrix(b) == EncodeWords(first.value) + EncodeMatrix(more.value);
      Concat3(EncodeWords(first.value), EncodeMatrix(more.value), more.rest);
      BiasesFitCons(sizes, first.value, more.value);
      Success(Read(b, more.rest))
  }

  /** count layer sizes. Each is checked as it is read: the first negative
      one fails with Format, before any later size is read. */
  function ReadSizes(s: seq<byte>, count: nat): (r: Result<Read<seq<nat>>>)
    ensures r.Failure? ==> Truncated(r) || r.error == Format
    ensures r.Success? ==> |r.value.value| == count && s == EncodeSizes(r.value.value) + r.value.rest
    ensures r.Success? ==> SizesFit(r.value.value)
    decreases count
  {
    if count == 0 then Success(Read([], s))
    else
      var first :- ReadInt32(s);
      if first.value < 0 then Failure(Format)
      else
        var more :- ReadSizes(first.rest, count - 1);
        var size: nat := first.value;
        var sizes := [size] + more.value;
        assert sizes[1..] == more.value;
        assert EncodeSizes(sizes) == EncodeInt32(size) + EncodeSizes(more.value);
        Concat3(EncodeInt32(size), EncodeSizes(more.value), more.rest);
        SizesFitCons(size, more.value);
        Success(Read(sizes, more.rest))
  }

  /** A size below 2^31 followed by sizes below 2^31. */
  lemma SizesFitCons(size: nat, more: seq<nat>)
    requires size < Two31 && SizesFit(more)
    ensures SizesFit([size] + more)
  {
    var sizes := [size] + more;
    forall i | 0 <= i < |sizes|
      ensures sizes[i] < Two31
    {
      if i > 0 {
        assert sizes[i] == more[i - 1];
      }
    }
  }

  /** LoadFile: the layer count (Format if negative), the sizes (Format at
      the first negative one), the network New builds for them (New panics
      on zero layers: NoLayers), then its weights and biases in file order.
      Bytes after the last bias are not read. What it returns is always an
      encodable network whose file is a prefix of the input. */
  function Decode(s: seq<byte>): (r: Result<Network<Word64>>)
    ensures |s| == 0 ==> r == Failure(EOF)
    ensures 0 < |s| < 4 ==> r == Failure(UnexpectedEOF)
    ensures r.Success? ==> Encodable(r.value) && Encode(r.value) <= s
    ensures r.Failure? ==> Truncated(r) || r.error == Format || r.error == NoLayers
  {
    var count :- ReadInt32(s);
    if count.value < 0 then Failure(Format)
    else
      var sizes :- ReadSizes(count.rest, count.value);
      if |sizes.value| == 0 then Failure(NoLayers)
      else
        var weights :- ReadWeights(sizes.rest, sizes.value);
        var biases :- ReadBiases(weights.rest, sizes.value);
        var net := Network(sizes.value, weights.value, biases.value);
        DecodedFile(net, count.value, s, count.rest, sizes.rest, weights.rest, biases.rest);
        Success(net)
  }

  /** The pieces LoadFile reads, one after the other, make up the file of
      the network they describe, and that network is encodable. */
  lemma DecodedFile(net: Network<Word64>, count: int, s: seq<byte>, s1: seq<byte>, s2: seq<byte>, s3: seq<byte>, s4: seq<byte>)
    requires 0 <= count < Two31 && |net.sizes| == count && |net.sizes| > 0 && SizesFit(net.sizes)
    requires WeightsFit(net.sizes, net.weights) && BiasesFit(net.sizes, net.biases)
    requires s == EncodeInt32(count) + s1 && s1 == EncodeSizes(net.sizes) + s2
    requires s2 == EncodeTensor(net.weights) + s3 && s3 == EncodeMatrix(net.biases) + s4
    ensures Encodable(net) && s == Encode(net) + s4 && Encode(net) <= s
  {
    var a, b, c, d := EncodeInt32(count), EncodeSizes(net.sizes), EncodeTensor(net.weights), EncodeMatrix(net.biases);
    assert Encode(net) == a + b + c + d;
    Concat5(a, b, c, d, s4);
    FitsWellFormed(net);
  }

  /** Weights and biases that fit the sizes make a well-formed network. */
  lemma FitsWellFormed(net: Network<Word64>)
    requires |net.sizes| > 0 && WeightsFit(net.sizes, net.weights) && BiasesFit(net.sizes, net.biases)
    ensures WellFormed(net)
  {
  }

  /** Five pieces in a row, grouped from the right or from the left. */
  lemma Concat5<T>(a: seq<T>, b: seq<T>, c: seq<T>, d: seq<T>, e: seq<T>)
    ensures a + (b + (c + (d + e))) == a + b + c + d + e
  {
  }

  // ---------------------------------------------------------------------
  // Reading back what was written

  /** An int32 reads back from its encoding, leaving what follows. */
  lemma ReadInt32Encode(x: int, t: seq<byte>)
    requires -Two31 <= x < Two31
    ensures ReadInt32(EncodeInt32(x) + t) == Success(Read(x, t))
  {
    var s := EncodeInt32(x) + t;
    assert s[..4] == EncodeInt32(x) && s[4..] == t;
    Int32Wraps(x);
  }

  /** A float64 reads back from its encoding, leaving what follows. */
  lemma ReadFloat64Encode(w: Word64, t: seq<byte>)
    ensures ReadFloat64(EncodeFloat64(w) + t) == Success(Read(w, t))
  {
    var s := EncodeFloat64(w) + t;
    assert s[..8] == EncodeFloat64(w) && s[8..] == t;
    Float64RoundTrip(w, EncodeFloat64(w));
  }

  lemma {:induction false} ReadWordsEncode(ws: seq<Word64>, t: seq<byte>)
    ensures ReadWords(EncodeWords(ws) + t, |ws|) == Success(Read(ws, t))
    decreases |ws|
  {
    if |ws| == 0 {
      assert EncodeWords(ws) + t == t;
    } else {
      var rest := EncodeWords(ws[1..]) + t;
      Concat3(EncodeFloat64(ws[0]), EncodeWords(ws[1..]), t);
      ReadFloat64Encode(ws[0], rest);
      ReadWordsEncode(ws[1..], t);
      assert [ws[0]] + ws[1..] == ws;
    }
  }

  lemma {:induction false} ReadMatrixEncode(m: seq<seq<Word64>>, rows: nat, cols: nat, t: seq<byte>)
    requires IsMatrix(m, rows, cols)
    ensures ReadMatrix(EncodeMatrix(m) + t, rows, cols) == Success(Read(m, t))
    decreases rows
  {
    if rows == 0 {
      assert EncodeMatrix(m) + t == t;
    } else {
      assert IsMatrix(m[1..], rows - 1, cols) by {
        assert forall i :: 0 <= i < rows - 1 ==> m[1..][i] == m[i + 1];
      }
      var rest := EncodeMatrix(m[1..]) + t;
      assert EncodeMatrix(m) + t == EncodeWords(m[0]) + rest by {
        Concat3(EncodeWords(m[0]), EncodeMatrix(m[1..]), t);
      }
      ReadWordsEncode(m[0], rest);
      ReadMatrixEncode(m[1..], rows - 1, cols, t);
      assert [m[0]] + m[1..] == m;
    }
  }

  lemma {:induction false} ReadWeightsEncode(w: seq<seq<seq<Word64>>>, sizes: seq<nat>, t: seq<byte>)
    requires WeightsFit(sizes, w)
    ensures ReadWeights(EncodeTensor(w) + t, sizes) == Success(Read(w, t))
    decreases |sizes|
  {
    if |sizes| < 2 {
      assert EncodeTensor(w) + t == t;
    } else {
      var rest := EncodeTensor(w[1..]) + t;
      Concat3(EncodeMatrix(w[0]), EncodeTensor(w[1..]), t);
      ReadMatrixEncode(w[0], sizes[1], sizes[0], rest);
      WeightsFitTail(sizes, w);
      ReadWeightsEncode(w[1..], sizes[1..], t);
      assert [w[0]] + w[1..] == w;
    }
  }

  lemma {:induction false} ReadBiasesEncode(b: seq<seq<Word64>>, sizes: seq<nat>, t: seq<byte>)
    requires BiasesFit(sizes, b)
    ensures ReadBiases(EncodeMatrix(b) + t, sizes) == Success(Read(b, t))
    decreases |sizes|
  {
    if |sizes| < 2 {
      assert EncodeMatrix(b) + t == t;
    } else {
      var rest := EncodeMatrix(b[1..]) + t;
      Concat3(EncodeWords(b[0]), EncodeMatrix(b[1..]), t);
      ReadWordsEncode(b[0], rest);
      BiasesFitTail(sizes, b);
      ReadBiasesEncode(b[1..], sizes[1..], t);
      assert [b[0]] + b[1..] == b;
    }
  }

  /** Sizes that int32 holds read back from their encoding. */
  predicate SizesFit(sizes: seq<nat>) {
    forall i :: 0 <= i < |sizes| ==> sizes[i] < Two31
  }

  lemma {:induction false} ReadSizesEncode(sizes: seq<nat>, t: seq<byte>)
    requires SizesFit(sizes)
    ensures ReadSizes(EncodeSizes(sizes) + t, |sizes|) == Success(Read(sizes, t))
    decreases |sizes|
  {
    if |sizes| == 0 {
      assert EncodeSizes(sizes) + t == t;
    } else {
      var rest := EncodeSizes(sizes[1..]) + t;
      Concat3(EncodeInt32(sizes[0]), EncodeSizes(sizes[1..]), t);
      ReadInt32Encode(sizes[0], rest);
      SizesFitTail(sizes);
      ReadSizesEncode(sizes[1..], t);
      assert [sizes[0]] + sizes[1..] == sizes;
    }
  }

  /** The rest of sizes that int32 holds are held too. */
  lemma SizesFitTail(sizes: seq<nat>)
    requires |sizes| >= 1 && SizesFit(sizes)
    ensures SizesFit(sizes[1..])
  {
    forall i | 0 <= i < |sizes[1..]|
      ensures sizes[1..][i] < Two31
    {
      assert sizes[1..][i] == sizes[i + 1];
    }
  }

  /** The rest of the weights fit the rest of the sizes. */
  lemma WeightsFitTail(sizes: seq<nat>, w: seq<seq<seq<Word64>>>)
    requires |sizes| >= 2 && WeightsFit(sizes, w)
    ensures WeightsFit(sizes[1..], w[1..])
  {
    forall i | 0 <= i < |w[1..]|
      ensures IsMatrix(w[1..][i], sizes[1..][i + 1], sizes[1..][i])
    {
      assert w[1..][i] == w[i + 1] && sizes[1..][i] == sizes[i + 1] && sizes[1..][i + 1] == sizes[i + 2];
    }
  }

  /** The rest of the biases fit the rest of the sizes. */
  lemma BiasesFitTail(sizes: seq<nat>, b: seq<seq<Word64>>)
    requires |sizes| >= 2 && BiasesFit(sizes, b)
    ensures BiasesFit(sizes[1..], b[1..])
  {
    forall i | 0 <= i < |b[1..]|
      ensures |b[1..][i]| == sizes[1..][i + 1]
    {
      assert b[1..][i] == b[i + 1] && sizes[1..][i + 1] == sizes[i + 2];
    }
  }

  /** LoadFile reads back what SaveFile wrote, whatever follows it. */
  lemma DecodeEncode(net: Network<Word64>, t: seq<byte>)
    requires Encodable(net)
    ensures Decode(Encode(net) + t) == Success(net)
  {
    var n := |net.sizes|;
    var tensor := EncodeTensor(net.weights) + EncodeMatrix(net.biases);
    var afterSizes := tensor + t;
    var afterCount := EncodeSizes(net.sizes) + afterSizes;
    assert Encode(net) + t == EncodeInt32(n) + afterCount;
    ReadInt32Encode(n, afterCount);
    assert SizesFit(net.sizes);
    ReadSizesEncode(net.sizes, afterSizes);
    assert WeightsFit(net.sizes, net.weights);
    Concat3(EncodeTensor(net.weights), EncodeMatrix(net.biases), t);
    ReadWeightsEncode(net.weights, net.sizes, EncodeMatrix(net.biases) + t);
    assert BiasesFit(net.sizes, net.biases);
    ReadBiasesEncode(net.biases, net.sizes, t);
  }

  // ---------------------------------------------------------------------
  // Reading a file cut short

  /** A strict prefix of an encoded matrix does not hold the matrix. */
  lemma {:induction false} ReadMatrixTruncated(m: seq<seq<Word64>>, rows: nat, cols: nat, s: seq<byte>)
    requires IsMatrix(m, rows, cols) && s < EncodeMatrix(m)
    ensures Truncated(ReadMatrix(s, rows, cols))
    decreases rows
  {
    if rows == 0 {
      assert false;
    } else {
      var head := EncodeWords(m[0]);
      var tail := EncodeMatrix(m[1..]);
      assert EncodeMatrix(m) == head + tail;
      if |s| >= |head| {
        var s' := s[|head|..];
        assert s == head + s';
        assert s' < tail;
        ReadWordsEncode(m[0], s');
        ReadMatrixTruncated(m[1..], rows - 1, cols, s');
      }
    }
  }

  /** A strict prefix of encoded weights does not hold the weights. */
  lemma {:induction false} ReadWeightsTruncated(w: seq<seq<seq<Word64>>>, sizes: seq<nat>, s: seq<byte>)
    requires WeightsFit(sizes, w) && s < EncodeTensor(w)
    ensures Truncated(ReadWeights(s, sizes))
    decreases |sizes|
  {
    if |sizes| < 2 {
      assert false;
    } else {
      var head := EncodeMatrix(w[0]);
      var tail := EncodeTensor(w[1..]);
      assert EncodeTensor(w) == head + tail;
      if |s| >= |head| {
        var s' := s[|head|..];
        assert s == head + s' && s' < tail by {
          assert s[..|head|] == (head + tail)[..|head|] == head;
        }
        ReadMatrixEncode(w[0], sizes[1], sizes[0], s');
        WeightsFitTail(sizes, w);
        ReadWeightsTruncated(w[1..], sizes[1..], s');
      } else {
        ReadMatrixTruncated(w[0], sizes[1], sizes[0], s);
      }
    }
  }

  /** A strict prefix of encoded biases does not hold the biases. */
  lemma {:induction false} ReadBiasesTruncated(b: seq<seq<Word64>>, sizes: seq<nat>, s: seq<byte>)
    requires BiasesFit(sizes, b) && s < EncodeMatrix(b)
    ensures Truncated(ReadBiases(s, sizes))
    decreases |sizes|
  {
    if |sizes| < 2 {
      assert false;
    } else {
      var head := EncodeWords(b[0]);
      var tail := EncodeMatrix(b[1..]);
      assert EncodeMatrix(b) == head + tail;
      if |s| >= |head| {
        var s' := s[|head|..];
        assert s == head + s' && s' < tail by {
          assert s[..|head|] == (head + tail)[..|head|] == head;
        }
        ReadWordsEncode(b[0], s');
        BiasesFitTail(sizes, b);
        ReadBiasesTruncated(b[1..], sizes[1..], s');
      }
    }
  }

  /** A strict prefix of encoded sizes does not hold the sizes. */
  lemma {:induction false} ReadSizesTruncated(sizes: seq<nat>, s: seq<byte>)
    requires SizesFit(sizes) && s < EncodeSizes(sizes)
    ensures Truncated(ReadSizes(s, |sizes|))
    decreases |sizes|
  {
    if |sizes| == 0 {
      assert false;
    } else {
      var head := EncodeInt32(sizes[0]);
      var tail := EncodeSizes(sizes[1..]);
      assert EncodeSizes(sizes) == head + tail;
      if |s| >= 4 {
        var s' := s[4..];
        assert s == head + s';
        assert s' < tail;
        ReadInt32Encode(sizes[0], s');
        SizesFitTail(sizes);
        ReadSizesTruncated(sizes[1..], s');
      }
    }
  }

  /** A strict prefix of a + b at least as long as a is a followed by a
      strict prefix of b. */
  lemma PrefixSplit(a: seq<byte>, b: seq<byte>, s: seq<byte>)
    requires s < a + b && |s| >= |a|
    ensures s == a + s[|a|..] && s[|a|..] < b
  {
    assert s[..|a|] == (a + b)[..|a|] == a;
    assert s[|a|..] == (a + b)[|a|..|s|];
  }

  /** LoadFile fails with EOF or UnexpectedEOF on every strict prefix of a
      file SaveFile wrote: no cut-off file loads. */
  lemma DecodeTruncated(net: Network<Word64>, s: seq<byte>)
    requires Encodable(net) && s < Encode(net)
    ensures Truncated(Decode(s))
  {
    var n := |net.sizes|;
    var count := EncodeInt32(n);
    var sz := EncodeSizes(net.sizes);
    var wb := EncodeTensor(net.weights) + EncodeMatrix(net.biases);
    if |s| >= 4 {
      var s1 := s[4..];
      assert s == count + s1 && s1 < sz + wb by {
        assert Encode(net) == count + (sz + wb);
        PrefixSplit(count, sz + wb, s);
      }
      if |s1| < |sz| {
        assert Truncated(Decode(s)) by {
          assert s1 < sz by {
            assert s1 == (sz + wb)[..|s1|];
          }
          ReadInt32Encode(n, s1);
          assert SizesFit(net.sizes);
          ReadSizesTruncated(net.sizes, s1);
        }
      } else {
        assert s1 == sz + s1[|sz|..] && s1[|sz|..] < wb by {
          PrefixSplit(sz, wb, s1);
        }
        DecodeTruncatedParameters(net, s, s1, s1[|sz|..]);
      }
    }
  }

  /** The part of DecodeTruncated where the cut falls in the weights or
      the biases: the count and the layer sizes are read in full. */
  lemma DecodeTruncatedParameters(net: Network<Word64>, s: seq<byte>, s1: seq<byte>, s2: seq<byte>)
    requires Encodable(net)
    requires s == EncodeInt32(|net.sizes|) + s1 && s1 == EncodeSizes(net.sizes) + s2
    requires s2 < EncodeTensor(net.weights) + EncodeMatrix(net.biases)
    ensures Truncated(Decode(s))
  {
    var w := EncodeTensor(net.weights);
    var b := EncodeMatrix(net.biases);
    ReadInt32Encode(|net.sizes|, s1);
    assert SizesFit(net.sizes);
    ReadSizesEncode(net.sizes, s2);
    assert WeightsFit(net.sizes, net.weights);
    if |s2| < |w| {
      assert s2 < w;
      ReadWeightsTruncated(net.weights, net.sizes, s2);
    } else {
      PrefixSplit(w, b, s2);
      var s3 := s2[|w|..];
      ReadWeightsEncode(net.weights, net.sizes, s3);
      assert BiasesFit(net.sizes, net.biases);
      ReadBiasesTruncated(net.biases, net.sizes, s3);
    }
  }

  /** LoadFile returns a network exactly when the input starts with that
      network's file: SaveFile and LoadFile are inverse on every network
      int32 can describe. */
  lemma DecodeExactly(net: Network<Word64>, s: seq<byte>)
    ensures Decode(s) == Success(net) <==> Encodable(net) && Encode(net) <= s
  {
    if Encodable(net) && Encode(net) <= s {
      var e := Encode(net);
      assert s == e + s[|e|..];
      DecodeEncode(net, s[|e|..]);
    }
  }

  // ---------------------------------------------------------------------
  // Files LoadFile rejects

  /** A negative layer count is a format error. */
  lemma DecodeNegativeCount(count: int, t: seq<byte>)
    requires -Two31 <= count < 0
    ensures Decode(EncodeInt32(count) + t) == Failure(Format)
  {
    ReadInt32Encode(count, t);
  }

  /** A layer count of zero reads no sizes and New panics on them. */
  lemma DecodeZeroLayers(t: seq<byte>)
    ensures Decode(EncodeInt32(0) + t) == Failure(NoLayers)
  {
    ReadInt32Encode(0, t);
  }

  /** The first negative size among those announced is a format error,
      whatever follows it. */
  lemma {:induction false} ReadSizesNegative(good: seq<nat>, bad: int, count: nat, t: seq<byte>)
    requires SizesFit(good) && |good| < count && -Two31 <= bad < 0
    ensures ReadSizes(EncodeSizes(good) + (EncodeInt32(bad) + t), count) == Failure(Format)
    decreases |good|
  {
    var tail := EncodeInt32(bad) + t;
    if |good| == 0 {
      assert EncodeSizes(good) + tail == tail;
      ReadInt32Encode(bad, t);
    } else {
      var rest := EncodeSizes(good[1..]) + tail;
      Concat3(EncodeInt32(good[0]), EncodeSizes(good[1..]), tail);
      ReadInt32Encode(good[0], rest);
      SizesFitTail(good);
      ReadSizesNegative(good[1..], bad, count - 1, t);
    }
  }

  lemma DecodeNegativeSize(count: nat, good: seq<nat>, bad: int, t: seq<byte>)
    requires count < Two31 && SizesFit(good) && |good| < count && -Two31 <= bad < 0
    ensures Decode(EncodeInt32(count) + (EncodeSizes(good) + (EncodeInt32(bad) + t))) == Failure(Format)
  {
    var rest := EncodeSizes(good) + (EncodeInt32(bad) + t);
    ReadInt32Encode(count, rest);
    ReadSizesNegative(good, bad, count, t);
  }
}

=== FILE: neuralnet.dfy ===
/** The network's parameter model (neuralnet.go): layer sizes, one weight
    matrix and one bias vector per weighted layer, construction,
    randomisation, inference and the layer count. */
module NeuralNet {
  import opened LinearAlg

  /** A multilayer perceptron. `sizes` lists the width of every layer,
      input first. weights[i] maps layer i to layer i + 1 (one row per
      neuron of layer i + 1) and biases[i] offsets layer i + 1.

      F is the representation of one parameter: `real` for the arithmetic
      of training and inference, a 64-bit pattern for the file codec. */
  datatype Network<F> = Network(sizes: seq<nat>, weights: seq<seq<seq<F>>>, biases: seq<seq<F>>)

  /** The shape invariant New establishes and every operation keeps: one
      weight matrix and one bias vector per weighted layer, matrix i with
      sizes[i + 1] rows of sizes[i] entries, bias vector i with sizes[i + 1]
      entries. */
  predicate WellFormed<F>(net: Network<F>) {
    && |net.sizes| >= 1
    && |net.weights| == |net.sizes| - 1
    && |net.biases| == |net.sizes| - 1
    && forall i :: 0 <= i < |net.biases| ==>
         |net.biases[i]| == net.sizes[i + 1] && IsMatrix(net.weights[i], net.sizes[i + 1], net.sizes[i])
  }

  /** The width of the output layer. */
  function OutputSize<F>(net: Network<F>): nat
    requires |net.sizes| >= 1
  {
    net.sizes[|net.sizes| - 1]
  }

  /** An input of length n can be pushed through the first weighted layer
      without indexing a row past its end: there is no weighted layer, the
      first one has no rows, or n does not exceed the input width. A
      shorter input is accepted by the source and behaves as if padded
      with zeros (LinearAlg.MultMatrixVectZeroPadding). */
  predicate InputFits<F>(net: Network<F>, n: nat) {
    |net.sizes| < 2 || net.sizes[1] == 0 || n <= net.sizes[0]
  }

  /** New: the network of the given layer sizes with every weight and bias
      zero. Go's make panics on a negative length, so there must be at
      least one layer. Sizes are naturals here: the source would also
      accept a negative input width when the first hidden layer is empty
      or absent, since that width only sizes rows of weights[0]. */
  function New(sizes: seq<nat>): (net: Network<real>)
    requires |sizes| >= 1
    ensures WellFormed(net) && net.sizes == sizes
    ensures forall i, j :: 0 <= i < |net.biases| && 0 <= j < |net.biases[i]| ==> net.biases[i][j] == 0.0
    ensures forall i, j, k :: 0 <= i < |net.weights| && 0 <= j < |net.weights[i]| && 0 <= k < |net.weights[i][j]| ==>
              net.weights[i][j][k] == 0.0
  {
    var weights := seq(|sizes| - 1, i requires 0 <= i < |sizes| - 1 => ZeroMatrix(sizes[i + 1], sizes[i]));
    var biases := seq(|sizes| - 1, i requires 0 <= i < |sizes| - 1 => Zeros(sizes[i + 1]));
    var net := Network(sizes, weights, biases);
    assert WellFormed(net) by {
      forall i | 0 <= i < |biases|
        ensures |biases[i]| == sizes[i + 1] && IsMatrix(weights[i], sizes[i + 1], sizes[i])
      {
        assert weights[i] == ZeroMatrix(sizes[i + 1], sizes[i]);
        assert biases[i] == Zeros(sizes[i + 1]);
      }
    }
    net
  }

  /** n zeros. */
  function Zeros(n: nat): (v: Vector)
    ensures |v| == n && forall j :: 0 <= j < n ==> v[j] == 0.0
  {
    seq(n, j => 0.0)
  }

  /** A rows x cols matrix of zeros. */
  function ZeroMatrix(rows: nat, cols: nat): (m: Matrix)
    ensures IsMatrix(m, rows, cols)
    ensures forall j, k :: 0 <= j < rows && 0 <= k < cols ==> m[j][k] == 0.0
  {
    seq(rows, j => Zeros(cols))
  }

  /** Randomize: every existing bias and weight is overwritten with a draw
      of the random source, here given as the value drawn for each
      position. Layer sizes and all shapes are unchanged. */
  function Randomize(net: Network<real>, biasDraw: (nat, nat) -> real, weightDraw: (nat, nat, nat) -> real)
    : (r: Network<real>)
    ensures r.sizes == net.sizes
    ensures SameShape(r.biases, net.biases) && SameShapes(r.weights, net.weights)
    ensures WellFormed(net) ==> WellFormed(r)
    ensures forall i, j :: 0 <= i < |r.biases| && 0 <= j < |r.biases[i]| ==> r.biases[i][j] == biasDraw(i, j)
    ensures forall i, j, k :: 0 <= i < |r.weights| && 0 <= j < |r.weights[i]| && 0 <= k < |r.weights[i][j]| ==>
              r.weights[i][j][k] == weightDraw(i, j, k)
  {
    var b := net.biases;
    var w := net.weights;
    var w' := seq(|w|, i requires 0 <= i < |w| => Redraw(w[i], (j: nat, k: nat) => weightDraw(i, j, k)));
    var b' := Redraw(b, biasDraw);
    assert SameShapes(w', w) by {
      forall i | 0 <= i < |w|
        ensures SameShape(w'[i], w[i])
      {
        assert w'[i] == Redraw(w[i], (j: nat, k: nat) => weightDraw(i, j, k));
      }
    }
    var r := Network(net.sizes, w', b');
    assert WellFormed(net) ==> WellFormed(r) by {
      if WellFormed(net) {
        forall i | 0 <= i < |b'|
          ensures |b'[i]| == net.sizes[i + 1] && IsMatrix(w'[i], net.sizes[i + 1], net.sizes[i])
        {
          assert SameShape(w'[i], w[i]);
        }
      }
    }
    r
  }

  /** A matrix of m's shape whose entry [j][k] is draw(j, k). */
  function Redraw(m: seq<seq<real>>, draw: (nat, nat) -> real): (r: seq<seq<real>>)
    ensures SameShape(r, m)
    ensures forall j, k :: 0 <= j < |r| && 0 <= k < |r[j]| ==> r[j][k] == draw(j, k)
  {
    seq(|m|, j requires 0 <= j < |m| => seq(|m[j]|, k requires 0 <= k < |m[j]| => draw(j, k)))
  }

  /** FeedForward as written: for every weighted layer, multiply by the
      weights and apply the sigmoid. The biases are never added. */
  function FeedForward(net: Network<real>, sigmoid: real -> real, input: Vector): (out: Vector)
    requires WellFormed(net) && InputFits(net, |input|)
    ensures |net.biases| == 0 ==> out == input
    ensures |net.biases| > 0 ==> |out| == OutputSize(net)
  {
    FeedFrom(net, sigmoid, input, 0)
  }

  /** The loop of FeedForward from layer i on, with a the activation of layer i. */
  function FeedFrom(net: Network<real>, sigmoid: real -> real, a: Vector, i: nat): (out: Vector)
    requires WellFormed(net) && i <= |net.biases|
    requires i == 0 ==> InputFits(net, |a|)
    requires i > 0 ==> |a| == net.sizes[i]
    ensures i == |net.biases| ==> out == a
    ensures i < |net.biases| ==> |out| == OutputSize(net)
    decreases |net.biases| - i
  {
    if i == |net.biases| then a
    else
      assert IsMatrix(net.weights[i], net.sizes[i + 1], net.sizes[i]);
      FeedFrom(net, sigmoid, SigmoidVect(sigmoid, MultMatrixVect(net.weights[i], a)), i + 1)
  }

  /** CountLayers: the number of layers, input and output included, which
      is one more than the number of weighted layers. */
  function CountLayers<F>(net: Network<F>): (n: nat)
    ensures WellFormed(net) ==> n == |net.weights| + 1 && n == |net.biases| + 1
    ensures WellFormed(net) ==> n >= 1
  {
    |net.sizes|
  }

  /** A network built by New has as many layers as it was given sizes. */
  lemma NewCountLayers(sizes: seq<nat>)
    requires |sizes| >= 1
    ensures CountLayers(New(sizes)) == |sizes|
    ensures |New(sizes).weights| == |sizes| - 1
  {
  }
}

=== FILE: results.dfy ===
/** Failures the library reports, and the Result type that carries them. */
module Results {

  /** The ways an operation can fail.
      - ShapeMismatch: an operand-length panic of addVects, subVects,
        addVectOfVects or addVectOfMats.
      - EmptyBatch: sgdEpoch's panic on an empty mini-batch.
      - Format: ErrFormat, a negative count or size in a parameter file.
      - EOF: a value was to be read and no byte was left.
      - UnexpectedEOF: a value was to be read and only part of it was left.
      - NoLayers: a parameter file that declares zero layers, on which
        New panics (it makes a slice of length -1). */
  datatype Error = ShapeMismatch | EmptyBatch | Format | EOF | UnexpectedEOF | NoLayers

  /** Either a value or the failure that prevented it. */
  datatype Result<+T> = Success(value: T) | Failure(error: Error) {

    predicate IsFailure() {
      Failure?
    }

    function PropagateFailure<U>(): Result<U>
      requires Failure?
    {
      Failure(error)
    }

    function Extract(): T
      requires Success?
    {
      value
    }
  }
}

=== FILE: sgd.dfy ===
/** Backpropagation and mini-batch stochastic gradient descent (sdg.go).

    For one example the forward pass records every layer's weighted input
    and activation, the error pass runs the chain rule from the output
    layer down, and the gradient pass turns errors into weight and bias
    deltas already scaled by -rate. sgdEpoch sums the deltas of a batch
    and adds them to the parameters; SGD cuts each epoch's permutation
    into full batches. */
module Sgd {
  import opened Results
  import opened Activation
  import opened LinearAlg
  import opened NeuralNet

  /** One entry of a training set: the pair GetVects returns. */
  datatype Example = Example(input: Vector, output: Vector)

  /** What sdgComputeAZ returns: the activation of every layer (the input
      first) and the weighted input of every weighted layer. */
  datatype Forward = Forward(activations: seq<Vector>, weighted: seq<Vector>)

  /** A weight-delta tensor and a bias-delta matrix. */
  datatype Gradient = Gradient(weights: Tensor, biases: Matrix)

  // ---------------------------------------------------------------------
  // Shapes

  /** The error pass transposes weights[l + 1] for every hidden layer,
      reading its row 0, so the source needs every layer after the first
      hidden one to be non-empty. */
  predicate HiddenNonEmpty(net: Network<real>) {
    forall k :: 2 <= k < |net.sizes| ==> net.sizes[k] > 0
  }

  /** What backpropagation needs of a network: the shape invariant, at
      least one weighted layer (the output error is deltas[n - 1]), and
      non-empty layers after the first hidden one. */
  predicate Trainable(net: Network<real>) {
    WellFormed(net) && |net.biases| >= 1 && HiddenNonEmpty(net)
  }

  /** Layer i of the forward pass, entry by entry: z = W_i a + b_i and
      next = sigmoid(z), with z and next one entry per neuron of layer i + 1. */
  predicate LayerStep(net: Network<real>, sigmoid: real -> real, i: nat, a: Vector, z: Vector, next: Vector)
    requires WellFormed(net) && i < |net.biases|
  {
    && |z| == net.sizes[i + 1]
    && |next| == net.sizes[i + 1]
    && forall j :: 0 <= j < net.sizes[i + 1] ==>
         && |a| <= |net.weights[i][j]|
         && z[j] == Dot(net.weights[i][j], a, |a|) + net.biases[i][j]
         && next[j] == sigmoid(z[j])
  }

  /** Hidden layer l of the error pass, entry by entry: error entry j is
      column j of weights[l + 1] dotted with the next layer's error, times
      the sigmoid's derivative at the weighted input z[j]. */
  predicate ErrorStep(net: Network<real>, sigmoid: real -> real, l: nat, z: Vector, d: Vector, next: Vector)
    requires WellFormed(net) && l + 1 < |net.biases|
  {
    && |d| == net.sizes[l + 1]
    && |z| == net.sizes[l + 1]
    && |next| == net.sizes[l + 2]
    && IsMatrix(net.weights[l + 1], net.sizes[l + 2], net.sizes[l + 1])
    && forall j :: 0 <= j < net.sizes[l + 1] ==>
         d[j] == ColumnDot(net.weights[l + 1], j, next, net.sizes[l + 2]) * SigmoidDiff(sigmoid, z[j])
  }

  /** Activations and weighted inputs have the lengths the forward pass gives them. */
  predicate ForwardShaped(net: Network<real>, f: Forward)
    requires WellFormed(net)
  {
    && |f.activations| == |net.sizes|
    && |f.weighted| == |net.biases|
    && (forall i :: 1 <= i < |net.sizes| ==> |f.activations[i]| == net.sizes[i])
    && (forall i :: 0 <= i < |net.biases| ==> |f.weighted[i]| == net.sizes[i + 1])
  }

  /** g is shaped like the network's parameters, except that the first
      weight-delta matrix has cols0 columns: one per entry of the input
      the gradient was computed from. */
  predicate GradientFor(net: Network<real>, g: Gradient, cols0: nat)
    requires WellFormed(net)
  {
    && |g.weights| == |net.biases|
    && |g.biases| == |net.biases|
    && forall i :: 0 <= i < |net.biases| ==>
         |g.biases[i]| == net.sizes[i + 1] && IsMatrix(g.weights[i], net.sizes[i + 1], if i == 0 then cols0 else net.sizes[i])
  }

  /** Every index of the batch selects an example, and no selected input
      is longer than the input layer (a longer one is indexed past the
      end of a weight row). */
  predicate BatchUsable(net: Network<real>, training: seq<Example>, batch: seq<nat>) {
    forall u :: 0 <= u < |batch| ==> batch[u] < |training| && InputFits(net, |training[batch[u]].input|)
  }

  /** The example matches the network: its expected output has the width of
      the output layer, and its input the width of the input layer (unless
      the first weighted layer has no neurons, when no input entry is read). */
  predicate Fits(net: Network<real>, ex: Example)
    requires |net.sizes| >= 2
  {
    |ex.output| == OutputSize(net) && (net.sizes[1] == 0 || |ex.input| == net.sizes[0])
  }

  /** Every example of the batch is usable and fits the network. */
  predicate BatchFits(net: Network<real>, training: seq<Example>, batch: seq<nat>)
    requires |net.sizes| >= 2
  {
    BatchUsable(net, training, batch) && forall u :: 0 <= u < |batch| ==> Fits(net, training[batch[u]])
  }

  // ---------------------------------------------------------------------
  // Forward pass

  /** Weighted input of layer i for the activation a: entry j is row j of
      weights[i] dotted with a, plus biases[i][j]. */
  function WeightedInput(net: Network<real>, i: nat, a: Vector): (z: Vector)
    requires WellFormed(net) && i < |net.biases|
    requires net.sizes[i + 1] == 0 || |a| <= net.sizes[i]
    ensures |z| == net.sizes[i + 1]
    ensures forall j :: 0 <= j < net.sizes[i + 1] ==>
              |a| <= |net.weights[i][j]| && z[j] == Dot(net.weights[i][j], a, |a|) + net.biases[i][j]
  {
    var m := net.weights[i];
    assert IsMatrix(m, net.sizes[i + 1], net.sizes[i]);
    AddVects(MultMatrixVect(m, a), net.biases[i]).value
  }

  /** One layer of the forward pass satisfies LayerStep. */
  lemma WeightedInputStep(net: Network<real>, sigmoid: real -> real, i: nat, a: Vector)
    requires WellFormed(net) && i < |net.biases|
    requires net.sizes[i + 1] == 0 || |a| <= net.sizes[i]
    ensures var z := WeightedInput(net, i, a);
      LayerStep(net, sigmoid, i, a, z, SigmoidVect(sigmoid, z))
  {
  }

  /** The first k layers of the forward pass. */
  function ForwardUpTo(net: Network<real>, sigmoid: real -> real, input: Vector, k: nat): (f: Forward)
    requires WellFormed(net) && InputFits(net, |input|) && k <= |net.biases|
    ensures |f.activations| == k + 1 && |f.weighted| == k
    ensures f.activations[0] == input
    ensures forall i :: 1 <= i <= k ==> |f.activations[i]| == net.sizes[i]
    ensures forall i :: 0 <= i < k ==> LayerStep(net, sigmoid, i, f.activations[i], f.weighted[i], f.activations[i + 1])
  {
    if k == 0 then Forward([input], [])
    else
      var p := ForwardUpTo(net, sigmoid, input, k - 1);
      var a := p.activations[k - 1];
      var z := WeightedInput(net, k - 1, a);
      var next := SigmoidVect(sigmoid, z);
      WeightedInputStep(net, sigmoid, k - 1, a);
      Forward(p.activations + [next], p.weighted + [z])
  }

  /** sdgComputeAZ: one activation per layer, the input first, and one
      weighted input per weighted layer, where for every layer i and
      neuron j the weighted input is the dot product of row j of
      weights[i] with activation i plus biases[i][j], and activation i + 1
      is its sigmoid. */
  function ComputeAZ(net: Network<real>, sigmoid: real -> real, input: Vector): (f: Forward)
    requires WellFormed(net) && InputFits(net, |input|)
    ensures |f.activations| == |net.sizes| && |f.weighted| == |net.biases|
    ensures f.activations[0] == input
    ensures ForwardShaped(net, f)
    ensures forall i :: 0 <= i < |net.biases| ==> LayerStep(net, sigmoid, i, f.activations[i], f.weighted[i], f.activations[i + 1])
  {
    ForwardUpTo(net, sigmoid, input, |net.biases|)
  }

  // ---------------------------------------------------------------------
  // Error pass

  /** The error of weighted layer l, given the output layer's error `top`. */
  function Delta(net: Network<real>, sigmoid: real -> real, weighted: seq<Vector>, top: Vector, l: nat): (d: Vector)
    requires Trainable(net) && l < |net.biases|
    requires |weighted| == |net.biases| && forall i :: 0 <= i < |weighted| ==> |weighted[i]| == net.sizes[i + 1]
    requires |top| == OutputSize(net)
    ensures |d| == net.sizes[l + 1]
    decreases |net.biases| - l
  {
    if l == |net.biases| - 1 then top
    else
      var m := net.weights[l + 1];
      assert IsMatrix(m, net.sizes[l + 2], net.sizes[l + 1]);
      HadamardProdVect(MultTransposeMatVector(m, Delta(net, sigmoid, weighted, top, l + 1)), SigmoidDiffVector(sigmoid, weighted[l]))
  }

  /** sdgComputeErr: the output error is (a_n - expected) times the
      sigmoid's derivative at z_{n-1}, entry by entry, and fails (subVects'
      panic) exactly when the expected output is not as wide as the output
      layer; each hidden error entry is column j of weights[l + 1] dotted
      with the next layer's error, times the derivative at z_l[j]. */
  function ComputeErr(net: Network<real>, sigmoid: real -> real, f: Forward, expected: Vector)
    : (r: Result<seq<Vector>>)
    requires Trainable(net) && ForwardShaped(net, f)
    ensures r.Success? <==> |expected| == OutputSize(net)
    ensures r.Failure? ==> r.error == ShapeMismatch
    ensures r.Success? ==> |r.value| == |net.biases|
    ensures r.Success? ==> forall l :: 0 <= l < |net.biases| ==> |r.value[l]| == net.sizes[l + 1]
    ensures r.Success? ==>
              var n := |net.biases|;
              forall j :: 0 <= j < OutputSize(net) ==>
                r.value[n - 1][j] == (f.activations[n][j] - expected[j]) * SigmoidDiff(sigmoid, f.weighted[n - 1][j])
    ensures r.Success? ==>
              forall l :: 0 <= l < |net.biases| - 1 ==> ErrorStep(net, sigmoid, l, f.weighted[l], r.value[l], r.value[l + 1])
  {
    var n := |net.biases|;
    var diff :- SubVects(f.activations[n], expected);
    var top := HadamardProdVect(diff, SigmoidDiffVector(sigmoid, f.weighted[n - 1]));
    Success(Deltas(net, sigmoid, f.weighted, top))
  }

  /** The errors of every weighted layer, given the output layer's `top`. */
  function Deltas(net: Network<real>, sigmoid: real -> real, weighted: seq<Vector>, top: Vector): (d: seq<Vector>)
    requires Trainable(net)
    requires |weighted| == |net.biases| && forall i :: 0 <= i < |weighted| ==> |weighted[i]| == net.sizes[i + 1]
    requires |top| == OutputSize(net)
    ensures |d| == |net.biases| && d[|d| - 1] == top
    ensures forall l :: 0 <= l < |d| ==> |d[l]| == net.sizes[l + 1]
    ensures forall l :: 0 <= l < |d| - 1 ==> ErrorStep(net, sigmoid, l, weighted[l], d[l], d[l + 1])
  {
    var n := |net.biases|;
    var d := seq(n, l requires 0 <= l < n => Delta(net, sigmoid, weighted, top, l));
    DeltasChain(net, sigmoid, weighted, top, d);
    d
  }

  /** Errors computed layer by layer by Delta are related by the chain rule. */
  lemma DeltasChain(net: Network<real>, sigmoid: real -> real, weighted: seq<Vector>, top: Vector, d: seq<Vector>)
    requires Trainable(net)
    requires |weighted| == |net.biases| && forall i :: 0 <= i < |weighted| ==> |weighted[i]| == net.sizes[i + 1]
    requires |top| == OutputSize(net)
    requires |d| == |net.biases| && forall l :: 0 <= l < |d| ==> d[l] == Delta(net, sigmoid, weighted, top, l)
    ensures forall l :: 0 <= l < |d| - 1 ==> ErrorStep(net, sigmoid, l, weighted[l], d[l], d[l + 1])
  {
    forall l | 0 <= l < |d| - 1
      ensures ErrorStep(net, sigmoid, l, weighted[l], d[l], d[l + 1])
    {
      DeltaStep(net, sigmoid, weighted, top, l);
    }
  }

  /** One step of the error recurrence. */
  lemma DeltaStep(net: Network<real>, sigmoid: real -> real, weighted: seq<Vector>, top: Vector, l: nat)
    requires Trainable(net) && l < |net.biases| - 1
    requires |weighted| == |net.biases| && forall i :: 0 <= i < |weighted| ==> |weighted[i]| == net.sizes[i + 1]
    requires |top| == OutputSize(net)
    ensures ErrorStep(net, sigmoid, l, weighted[l], Delta(net, sigmoid, weighted, top, l), Delta(net, sigmoid, weighted, top, l + 1))
  {
    var m := net.weights[l + 1];
    assert IsMatrix(m, net.sizes[l + 2], net.sizes[l + 1]);
    var next := Delta(net, sigmoid, weighted, top, l + 1);
    assert Delta(net, sigmoid, weighted, top, l) == HadamardProdVect(MultTransposeMatVector(m, next), SigmoidDiffVector(sigmoid, weighted[l]));
    HiddenError(net, sigmoid, l, weighted[l], next);
  }

  /** The error the recurrence gives hidden layer l from the next layer's
      error satisfies ErrorStep. */
  lemma HiddenError(net: Network<real>, sigmoid: real -> real, l: nat, z: Vector, next: Vector)
    requires Trainable(net) && l + 1 < |net.biases|
    requires |z| == net.sizes[l + 1] && |next| == net.sizes[l + 2]
    ensures IsMatrix(net.weights[l + 1], net.sizes[l + 2], net.sizes[l + 1])
    ensures var m := net.weights[l + 1];
      ErrorStep(net, sigmoid, l, z, HadamardProdVect(MultTransposeMatVector(m, next), SigmoidDiffVector(sigmoid, z)), next)
  {
    var m := net.weights[l + 1];
    assert IsMatrix(m, net.sizes[l + 2], net.sizes[l + 1]);
    var back := MultTransposeMatVector(m, next);
    var diff := SigmoidDiffVector(sigmoid, z);
    forall j | 0 <= j < net.sizes[l + 1]
      ensures HadamardProdVect(back, diff)[j] == ColumnDot(m, j, next, net.sizes[l + 2]) * SigmoidDiff(sigmoid, z[j])
    {
      ProductEntry(back, diff, j, ColumnDot(m, j, next, net.sizes[l + 2]), SigmoidDiff(sigmoid, z[j]));
    }
  }

  /** Entry j of an entrywise product whose factors' entries are known. */
  lemma ProductEntry(u: Vector, v: Vector, j: nat, x: real, y: real)
    requires j < |u| <= |v| && u[j] == x && v[j] == y
    ensures HadamardProdVect(u, v)[j] == x * y
  {
  }

  // ---------------------------------------------------------------------
  // Gradient pass

  /** Layer i of a gradient computed from the layer's error d and its
      input activation a at the given rate: bias delta j is -rate times
      d[j], and weight delta [j][k] is bias delta j times a[k]. */
  predicate LayerDiffs(g: Gradient, i: nat, d: Vector, a: Vector, rate: real)
    requires i < |g.weights| && i < |g.biases|
  {
    && |g.biases[i]| == |d|
    && IsMatrix(g.weights[i], |d|, |a|)
    && (forall j :: 0 <= j < |d| ==> g.biases[i][j] == -rate * d[j])
    && (forall j, k :: 0 <= j < |d| && 0 <= k < |a| ==> g.weights[i][j][k] == g.biases[i][j] * a[k])
  }

  /** sdgComputeWBDiffs: bias delta i is -rate times error i, and weight
      delta i is the outer product of bias delta i with activation i, so
      each weight delta has one row per error entry and one column per
      activation entry, and a zero activation gives a zero column. */
  function ComputeWBDiffs(net: Network<real>, deltas: seq<Vector>, activations: seq<Vector>, rate: real)
    : (g: Gradient)
    requires WellFormed(net) && |deltas| >= |net.biases| && |activations| >= |net.biases|
    ensures |g.weights| == |net.biases| && |g.biases| == |net.biases|
    ensures forall i :: 0 <= i < |net.biases| ==> LayerDiffs(g, i, deltas[i], activations[i], rate)
  {
    var n := |net.biases|;
    var b := seq(n, i requires 0 <= i < n => MultScalarVect(-rate, deltas[i]));
    var w := seq(n, i requires 0 <= i < n => MultVectTransposeVect(b[i], activations[i]));
    var g := Gradient(w, b);
    assert forall i :: 0 <= i < n ==> LayerDiffs(g, i, deltas[i], activations[i], rate) by {
      forall i | 0 <= i < n
        ensures LayerDiffs(g, i, deltas[i], activations[i], rate)
      {
        assert b[i] == MultScalarVect(-rate, deltas[i]);
        assert w[i] == MultVectTransposeVect(b[i], activations[i]);
      }
    }
    g
  }

  /** sgdComputeWBDeltas: the three passes for one example. It fails
      exactly when the expected output does not match the output layer;
      otherwise the deltas are shaped like the parameters, with one
      column per input entry in the first layer. */
  function ComputeWBDeltas(net: Network<real>, sigmoid: real -> real, input: Vector, expected: Vector, rate: real)
    : (r: Result<Gradient>)
    requires Trainable(net) && InputFits(net, |input|)
    ensures r.Success? <==> |expected| == OutputSize(net)
    ensures r.Failure? ==> r.error == ShapeMismatch
    ensures r.Success? ==> GradientFor(net, r.value, |input|)
  {
    var f := ComputeAZ(net, sigmoid, input);
    var deltas :- ComputeErr(net, sigmoid, f, expected);
    Success(ComputeWBDiffs(net, deltas, f.activations, rate))
  }

  /** The entries of sgdComputeWBDeltas' result: bias delta [i][j] is
      -rate times error [i][j] of the error pass, and weight delta [i][j][k]
      is that bias delta times entry k of activation i of the forward pass. */
  lemma ComputeWBDeltasEntries(net: Network<real>, sigmoid: real -> real, input: Vector, expected: Vector, rate: real)
    requires Trainable(net) && InputFits(net, |input|) && |expected| == OutputSize(net)
    ensures var f := ComputeAZ(net, sigmoid, input);
      var deltas := ComputeErr(net, sigmoid, f, expected).value;
      var g := ComputeWBDeltas(net, sigmoid, input, expected, rate).value;
      forall i :: 0 <= i < |net.biases| ==> LayerDiffs(g, i, deltas[i], f.activations[i], rate)
  {
    var f := ComputeAZ(net, sigmoid, input);
    var deltas := ComputeErr(net, sigmoid, f, expected).value;
    assert ComputeWBDeltas(net, sigmoid, input, expected, rate) == Success(ComputeWBDiffs(net, deltas, f.activations, rate));
  }

  /** Column k of the first weight delta is the first bias delta scaled by
      input entry k: a zero input entry gives a zero column. */
  lemma FirstLayerColumns(net: Network<real>, sigmoid: real -> real, input: Vector, expected: Vector, rate: real)
    requires Trainable(net) && InputFits(net, |input|) && |expected| == OutputSize(net)
    ensures var g := ComputeWBDeltas(net, sigmoid, input, expected, rate).value;
      |g.biases[0]| == net.sizes[1] && |g.weights[0]| == net.sizes[1]
    ensures var g := ComputeWBDeltas(net, sigmoid, input, expected, rate).value;
      forall j :: 0 <= j < net.sizes[1] ==> |g.weights[0][j]| == |input|
    ensures var g := ComputeWBDeltas(net, sigmoid, input, expected, rate).value;
      forall j, k :: 0 <= j < net.sizes[1] && 0 <= k < |input| ==> g.weights[0][j][k] == g.biases[0][j] * input[k]
  {
    FirstLayerDiffs(net, sigmoid, input, expected, rate);
    var d := ComputeErr(net, sigmoid, ComputeAZ(net, sigmoid, input), expected).value[0];
    FirstColumns(ComputeWBDeltas(net, sigmoid, input, expected, rate).value, d, input, rate, net.sizes[1]);
  }

  /** Layer 0 of the deltas in terms of the input itself. */
  lemma FirstLayerDiffs(net: Network<real>, sigmoid: real -> real, input: Vector, expected: Vector, rate: real)
    requires Trainable(net) && InputFits(net, |input|) && |expected| == OutputSize(net)
    ensures var g := ComputeWBDeltas(net, sigmoid, input, expected, rate).value;
      var d := ComputeErr(net, sigmoid, ComputeAZ(net, sigmoid, input), expected).value[0];
      0 < |g.weights| && 0 < |g.biases| && |d| == net.sizes[1] && LayerDiffs(g, 0, d, input, rate)
  {
    ComputeWBDeltasEntries(net, sigmoid, input, expected, rate);
  }

  /** The columns of layer 0 of a gradient, given its error and activation. */
  lemma FirstColumns(g: Gradient, d: Vector, a: Vector, rate: real, rows: nat)
    requires 0 < |g.weights| && 0 < |g.biases| && LayerDiffs(g, 0, d, a, rate) && |d| == rows
    ensures forall j, k :: 0 <= j < rows && 0 <= k < |a| ==>
              |g.biases[0]| == rows && |g.weights[0]| == rows && |g.weights[0][j]| == |a| &&
              g.weights[0][j][k] == g.biases[0][j] * a[k]
  {
  }

  // ---------------------------------------------------------------------
  // One mini-batch

  /** The loop of sgdEpoch from the batch's t-th example on, with acc the
      deltas summed so far. */
  function Accumulate(net: Network<real>, sigmoid: real -> real, training: seq<Example>, batch: seq<nat>,
                      step: real, t: nat, acc: Gradient): (r: Result<Gradient>)
    requires Trainable(net) && BatchUsable(net, training, batch) && t <= |batch|
    ensures r.Failure? ==> r.error == ShapeMismatch
    decreases |batch| - t
  {
    if t == |batch| then Success(acc)
    else
      var next :- AddSample(net, sigmoid, training[batch[t]], step, acc);
      Accumulate(net, sigmoid, training, batch, step, t + 1, next)
  }

  /** One iteration of that loop: the example's deltas added to the running
      sum, layer by layer (addVectOfMats, then addVectOfVects). */
  function AddSample(net: Network<real>, sigmoid: real -> real, ex: Example, step: real, acc: Gradient)
    : (r: Result<Gradient>)
    requires Trainable(net) && InputFits(net, |ex.input|)
    ensures r.Failure? ==> r.error == ShapeMismatch
  {
    var g :- ComputeWBDeltas(net, sigmoid, ex.input, ex.output, step);
    var w :- AddVectOfMats(acc.weights, g.weights);
    var b :- AddVectOfVects(acc.biases, g.biases);
    Success(Gradient(w, b))
  }

  /** sgdEpoch: fails with EmptyBatch on an empty batch. Otherwise every
      example's deltas are computed at step rate / len(batch) and summed,
      and the sum is added to the parameters; layer sizes and parameter
      shapes are kept. */
  function SgdEpoch(net: Network<real>, sigmoid: real -> real, training: seq<Example>, batch: seq<nat>, rate: real)
    : (r: Result<Network<real>>)
    requires |batch| > 0 ==> Trainable(net)
    requires BatchUsable(net, training, batch)
    ensures |batch| == 0 <==> r == Failure(EmptyBatch)
    ensures r.Success? ==> r.value.sizes == net.sizes && Trainable(r.value)
    ensures r.Success? ==> SameShapes(r.value.weights, net.weights) && SameShape(r.value.biases, net.biases)
  {
    if |batch| == 0 then Failure(EmptyBatch)
    else
      var step := rate / (|batch| as real);
      var first := training[batch[0]];
      var g0 :- ComputeWBDeltas(net, sigmoid, first.input, first.output, step);
      var g :- Accumulate(net, sigmoid, training, batch, step, 1, g0);
      ApplyGradient(net, g)
  }

  /** The last step of sgdEpoch: the summed deltas are added to the
      parameters, which fails exactly when their shapes differ. */
  function ApplyGradient(net: Network<real>, g: Gradient): (r: Result<Network<real>>)
    requires WellFormed(net)
    ensures r.Success? <==> SameShapes(net.weights, g.weights) && SameShape(net.biases, g.biases)
    ensures r.Failure? ==> r.error == ShapeMismatch
    ensures r.Success? ==> r.value.sizes == net.sizes && WellFormed(r.value)
    ensures r.Success? ==> SameShapes(r.value.weights, net.weights) && SameShape(r.value.biases, net.biases)
    ensures r.Success? ==>
              && (forall i :: 0 <= i < |net.weights| ==> AddVectOfVects(net.weights[i], g.weights[i]) == Success(r.value.weights[i]))
              && (forall i, j :: 0 <= i < |net.biases| && 0 <= j < |net.biases[i]| ==>
                    r.value.biases[i][j] == net.biases[i][j] + g.biases[i][j])
  {
    var w :- AddVectOfMats(net.weights, g.weights);
    var b :- AddVectOfVects(net.biases, g.biases);
    ReshapedWellFormed(net, w, b);
    Success(Network(net.sizes, w, b))
  }

  /** Parameters of the same shapes as a well-formed network's form a
      well-formed network with its sizes. */
  lemma ReshapedWellFormed(net: Network<real>, w: Tensor, b: Matrix)
    requires WellFormed(net) && SameShapes(w, net.weights) && SameShape(b, net.biases)
    ensures WellFormed(Network(net.sizes, w, b))
  {
    forall i | 0 <= i < |b|
      ensures |b[i]| == net.sizes[i + 1] && IsMatrix(w[i], net.sizes[i + 1], net.sizes[i])
    {
      assert SameShape(w[i], net.weights[i]);
    }
  }

  /** Two gradients shaped for one network always have matching bias
      shapes, and matching weight shapes exactly when they were computed
      from inputs of the same length (or the first weighted layer is empty). */
  lemma GradientShapes(net: Network<real>, g1: Gradient, c1: nat, g2: Gradient, c2: nat)
    requires Trainable(net) && GradientFor(net, g1, c1) && GradientFor(net, g2, c2)
    ensures SameShape(g1.biases, g2.biases)
    ensures SameShapes(g1.weights, g2.weights) <==> net.sizes[1] == 0 || c1 == c2
  {
    forall i | 0 <= i < |g1.biases|
      ensures |g1.biases[i]| == |g2.biases[i]|
    {
      assert |g1.biases[i]| == net.sizes[i + 1] && IsMatrix(g1.weights[i], net.sizes[i + 1], if i == 0 then c1 else net.sizes[i]);
      assert |g2.biases[i]| == net.sizes[i + 1] && IsMatrix(g2.weights[i], net.sizes[i + 1], if i == 0 then c2 else net.sizes[i]);
    }
    if net.sizes[1] == 0 || c1 == c2 {
      forall i | 0 <= i < |net.biases|
        ensures SameShape(g1.weights[i], g2.weights[i])
      {
        var cols := if i == 0 then c1 else net.sizes[i];
        assert IsMatrix(g1.weights[i], net.sizes[i + 1], cols);
        assert IsMatrix(g2.weights[i], net.sizes[i + 1], cols);
      }
    } else {
      assert IsMatrix(g1.weights[0], net.sizes[1], c1) && IsMatrix(g2.weights[0], net.sizes[1], c2);
      assert |g1.weights[0][0]| != |g2.weights[0][0]|;
      assert !SameShape(g1.weights[0], g2.weights[0]);
    }
  }

  /** The parameters of a well-formed network are shaped like a gradient
      computed from an input as wide as its input layer. */
  lemma ParametersAsGradient(net: Network<real>)
    requires WellFormed(net)
    ensures GradientFor(net, Gradient(net.weights, net.biases), net.sizes[0])
  {
  }

  /** Summing a gradient with one of the same shapes keeps the shape. */
  lemma SumKeepsGradientShape(net: Network<real>, g: Gradient, c: nat, w: Tensor, b: Matrix)
    requires WellFormed(net) && GradientFor(net, g, c)
    requires SameShapes(w, g.weights) && SameShape(b, g.biases)
    ensures GradientFor(net, Gradient(w, b), c)
  {
    forall i | 0 <= i < |net.biases|
      ensures |b[i]| == net.sizes[i + 1] && IsMatrix(w[i], net.sizes[i + 1], if i == 0 then c else net.sizes[i])
    {
      assert SameShape(w[i], g.weights[i]);
    }
  }

  /** The example's deltas can be added to a running sum shaped by an
      input of length c: its expected output is as wide as the output
      layer and its input has length c (unless the first weighted layer
      is empty). */
  predicate Matches(net: Network<real>, ex: Example, c: nat)
    requires |net.sizes| >= 2
  {
    |ex.output| == OutputSize(net) && (net.sizes[1] == 0 || |ex.input| == c)
  }

  /** Every example of the batch from the t-th on matches a running sum
      shaped by an input of length c. */
  predicate AllMatch(net: Network<real>, training: seq<Example>, batch: seq<nat>, t: nat, c: nat)
    requires |net.sizes| >= 2 && BatchUsable(net, training, batch)
  {
    forall u :: t <= u < |batch| ==> Matches(net, training[batch[u]], c)
  }

  /** AllMatch from t on is Matches at t and AllMatch from t + 1 on. */
  lemma AllMatchStep(net: Network<real>, training: seq<Example>, batch: seq<nat>, t: nat, c: nat)
    requires |net.sizes| >= 2 && BatchUsable(net, training, batch) && t < |batch|
    ensures AllMatch(net, training, batch, t, c) <==>
              Matches(net, training[batch[t]], c) && AllMatch(net, training, batch, t + 1, c)
  {
    if Matches(net, training[batch[t]], c) && AllMatch(net, training, batch, t + 1, c) {
      forall u | t <= u < |batch|
        ensures Matches(net, training[batch[u]], c)
      {
        if u > t {
          assert t + 1 <= u < |batch|;
        }
      }
    }
  }

  /** Adding an example's deltas to a running sum shaped by an input of
      length c succeeds exactly when the example matches that shape, and
      then keeps it. */
  lemma AddSampleOutcome(net: Network<real>, sigmoid: real -> real, ex: Example, step: real, acc: Gradient, c: nat)
    requires Trainable(net) && InputFits(net, |ex.input|) && GradientFor(net, acc, c)
    ensures var r := AddSample(net, sigmoid, ex, step, acc);
      && (r.Success? <==> Matches(net, ex, c))
      && (r.Success? ==> GradientFor(net, r.value, c))
  {
    var gr := ComputeWBDeltas(net, sigmoid, ex.input, ex.output, step);
    if gr.Success? {
      var g := gr.value;
      GradientShapes(net, acc, c, g, |ex.input|);
      if SameShapes(acc.weights, g.weights) {
        var w := AddVectOfMats(acc.weights, g.weights).value;
        var b := AddVectOfVects(acc.biases, g.biases).value;
        SumKeepsGradientShape(net, acc, c, w, b);
      }
    }
  }

  /** The loop of sgdEpoch succeeds exactly when every remaining example
      matches the running sum's shape, and then keeps that shape. */
  lemma {:induction false} AccumulateOutcome(net: Network<real>, sigmoid: real -> real, training: seq<Example>,
                                              batch: seq<nat>, step: real, t: nat, acc: Gradient, c: nat)
    requires Trainable(net) && BatchUsable(net, training, batch) && t <= |batch|
    requires GradientFor(net, acc, c)
    ensures var r := Accumulate(net, sigmoid, training, batch, step, t, acc);
      && (r.Success? <==> AllMatch(net, training, batch, t, c))
      && (r.Success? ==> GradientFor(net, r.value, c))
    decreases |batch| - t
  {
    if t < |batch| {
      var ex := training[batch[t]];
      var next := AddSample(net, sigmoid, ex, step, acc);
      assert AllMatch(net, training, batch, t, c) <==> Matches(net, ex, c) && AllMatch(net, training, batch, t + 1, c) by {
        AllMatchStep(net, training, batch, t, c);
      }
      assert (next.Success? <==> Matches(net, ex, c)) && (next.Success? ==> GradientFor(net, next.value, c)) by {
        AddSampleOutcome(net, sigmoid, ex, step, acc, c);
      }
      AccumulateStep(net, sigmoid, training, batch, step, t, acc);
      if next.Success? {
        AccumulateOutcome(net, sigmoid, training, batch, step, t + 1, next.value, c);
      }
    }
  }

  /** One iteration of the loop of sgdEpoch: the example's deltas are
      added and the loop goes on, or the loop stops with the addition's failure. */
  lemma AccumulateStep(net: Network<real>, sigmoid: real -> real, training: seq<Example>, batch: seq<nat>,
                       step: real, t: nat, acc: Gradient)
    requires Trainable(net) && BatchUsable(net, training, batch) && t < |batch|
    ensures var next := AddSample(net, sigmoid, training[batch[t]], step, acc);
      Accumulate(net, sigmoid, training, batch, step, t, acc) ==
        if next.Success? then Accumulate(net, sigmoid, training, batch, step, t + 1, next.value) else Failure(ShapeMismatch)
  {
  }

  /** sgdEpoch succeeds exactly when the batch is non-empty and every
      example of it fits the network; an empty batch is the only
      EmptyBatch failure and every other failure is a ShapeMismatch. */
  lemma SgdEpochOutcome(net: Network<real>, sigmoid: real -> real, training: seq<Example>, batch: seq<nat>, rate: real)
    requires Trainable(net) && BatchUsable(net, training, batch)
    ensures SgdEpoch(net, sigmoid, training, batch, rate).Success? <==> |batch| > 0 && BatchFits(net, training, batch)
    ensures SgdEpoch(net, sigmoid, training, batch, rate).Failure? ==>
              SgdEpoch(net, sigmoid, training, batch, rate).error == (if |batch| == 0 then EmptyBatch else ShapeMismatch)
  {
    if |batch| > 0 {
      var r := SgdEpoch(net, sigmoid, training, batch, rate);
      var step := rate / (|batch| as real);
      var first := training[batch[0]];
      var c := |first.input|;
      BatchFitsByMatches(net, training, batch);
      var g0r := ComputeWBDeltas(net, sigmoid, first.input, first.output, step);
      if g0r.Failure? {
        assert !Fits(net, first);
      } else {
        var g0 := g0r.value;
        AccumulateOutcome(net, sigmoid, training, batch, step, 1, g0, c);
        var gr := Accumulate(net, sigmoid, training, batch, step, 1, g0);
        if gr.Success? {
          assert r == ApplyGradient(net, gr.value);
          ParametersAsGradient(net);
          GradientShapes(net, Gradient(net.weights, net.biases), net.sizes[0], gr.value, c);
          assert Fits(net, first) <==> net.sizes[1] == 0 || net.sizes[0] == c;
        }
      }
    }
  }

  /** A non-empty batch fits exactly when its first example fits and every
      other example matches the first one's input length. */
  lemma BatchFitsByMatches(net: Network<real>, training: seq<Example>, batch: seq<nat>)
    requires |net.sizes| >= 2 && BatchUsable(net, training, batch) && |batch| > 0
    ensures BatchFits(net, training, batch) <==>
              Fits(net, training[batch[0]]) && AllMatch(net, training, batch, 1, |training[batch[0]].input|)
  {
    var c := |training[batch[0]].input|;
    if Fits(net, training[batch[0]]) && AllMatch(net, training, batch, 1, c) {
      forall u | 0 <= u < |batch|
        ensures Fits(net, training[batch[u]])
      {
        if u > 0 {
          assert Matches(net, training[batch[u]], c);
        }
      }
    }
    if BatchFits(net, training, batch) {
      forall u | 1 <= u < |batch|
        ensures Matches(net, training[batch[u]], c)
      {
        assert Fits(net, training[batch[u]]) && Fits(net, training[batch[0]]);
      }
    }
  }

  // ---------------------------------------------------------------------
  // The update sgdEpoch applies

  /** The deltas one fitting example contributes at step size `step`. */
  function SampleGradient(net: Network<real>, sigmoid: real -> real, ex: Example, step: real): (g: Gradient)
    requires Trainable(net) && Fits(net, ex)
    ensures GradientFor(net, g, net.sizes[0])
  {
    ComputeWBDeltas(net, sigmoid, ex.input, ex.output, step).value
  }

  /** The sum, over the batch's examples from the t-th on, of their weight
      delta at [i][j][k]. */
  function WeightSum(net: Network<real>, sigmoid: real -> real, training: seq<Example>, batch: seq<nat>, step: real,
                     t: nat, i: nat, j: nat, k: nat): real
    requires Trainable(net) && BatchFits(net, training, batch) && t <= |batch|
    requires i < |net.biases| && j < net.sizes[i + 1] && k < net.sizes[i]
    decreases |batch| - t
  {
    if t == |batch| then 0.0
    else
      SampleGradient(net, sigmoid, training[batch[t]], step).weights[i][j][k]
        + WeightSum(net, sigmoid, training, batch, step, t + 1, i, j, k)
  }

  /** The sum, over the batch's examples from the t-th on, of their bias
      delta at [i][j]. */
  function BiasSum(net: Network<real>, sigmoid: real -> real, training: seq<Example>, batch: seq<nat>, step: real,
                   t: nat, i: nat, j: nat): real
    requires Trainable(net) && BatchFits(net, training, batch) && t <= |batch|
    requires i < |net.biases| && j < net.sizes[i + 1]
    decreases |batch| - t
  {
    if t == |batch| then 0.0
    else
      SampleGradient(net, sigmoid, training[batch[t]], step).biases[i][j]
        + BiasSum(net, sigmoid, training, batch, step, t + 1, i, j)
  }

  /** res is acc plus, entry by entry, the deltas of the batch's examples
      from the t-th on. */
  predicate AddsSums(net: Network<real>, sigmoid: real -> real, training: seq<Example>, batch: seq<nat>,
                     step: real, t: nat, acc: Gradient, res: Gradient)
    requires Trainable(net) && BatchFits(net, training, batch) && t <= |batch|
    requires GradientFor(net, acc, net.sizes[0]) && GradientFor(net, res, net.sizes[0])
  {
    AddsWeightSums(net, sigmoid, training, batch, step, t, acc, res) && AddsBiasSums(net, sigmoid, training, batch, step, t, acc, res)
  }

  /** The weight part of AddsSums. */
  predicate AddsWeightSums(net: Network<real>, sigmoid: real -> real, training: seq<Example>, batch: seq<nat>,
                           step: real, t: nat, acc: Gradient, res: Gradient)
    requires Trainable(net) && BatchFits(net, training, batch) && t <= |batch|
    requires GradientFor(net, acc, net.sizes[0]) && GradientFor(net, res, net.sizes[0])
  {
    forall i, j, k :: 0 <= i < |net.biases| && 0 <= j < net.sizes[i + 1] && 0 <= k < net.sizes[i] ==>
      WeightEntryAdds(net, sigmoid, training, batch, step, t, acc, res, i, j, k)
  }

  /** Entry [i][j][k] of res is that of acc plus the batch's deltas there from the t-th example on. */
  predicate WeightEntryAdds(net: Network<real>, sigmoid: real -> real, training: seq<Example>, batch: seq<nat>,
                            step: real, t: nat, acc: Gradient, res: Gradient, i: nat, j: nat, k: nat)
    requires Trainable(net) && BatchFits(net, training, batch) && t <= |batch|
    requires GradientFor(net, acc, net.sizes[0]) && GradientFor(net, res, net.sizes[0])
    requires i < |net.biases| && j < net.sizes[i + 1] && k < net.sizes[i]
  {
    assert IsMatrix(acc.weights[i], net.sizes[i + 1], net.sizes[i]) && IsMatrix(res.weights[i], net.sizes[i + 1], net.sizes[i]);
    res.weights[i][j][k] == acc.weights[i][j][k] + WeightSum(net, sigmoid, training, batch, step, t, i, j, k)
  }

  /** The bias part of AddsSums. */
  predicate AddsBiasSums(net: Network<real>, sigmoid: real -> real, training: seq<Example>, batch: seq<nat>,
                         step: real, t: nat, acc: Gradient, res: Gradient)
    requires Trainable(net) && BatchFits(net, training, batch) && t <= |batch|
    requires GradientFor(net, acc, net.sizes[0]) && GradientFor(net, res, net.sizes[0])
  {
    forall i, j :: 0 <= i < |net.biases| && 0 <= j < net.sizes[i + 1] ==>
      res.biases[i][j] == acc.biases[i][j] + BiasSum(net, sigmoid, training, batch, step, t, i, j)
  }

  /** On a fitting batch the loop of sgdEpoch adds every remaining
      example's deltas to the running sum, entry by entry. */
  lemma {:induction false} AccumulateSums(net: Network<real>, sigmoid: real -> real, training: seq<Example>,
                                           batch: seq<nat>, step: real, t: nat, acc: Gradient)
    requires Trainable(net) && BatchFits(net, training, batch) && t <= |batch|
    requires GradientFor(net, acc, net.sizes[0])
    ensures var r := Accumulate(net, sigmoid, training, batch, step, t, acc);
      r.Success? && GradientFor(net, r.value, net.sizes[0]) && AddsSums(net, sigmoid, training, batch, step, t, acc, r.value)
    decreases |batch| - t
  {
    if t < |batch| {
      var ex := training[batch[t]];
      AddSampleSum(net, sigmoid, ex, step, acc);
      var sum := AddSample(net, sigmoid, ex, step, acc).value;
      AccumulateSums(net, sigmoid, training, batch, step, t + 1, sum);
      var r := Accumulate(net, sigmoid, training, batch, step, t + 1, sum);
      AddsSumsStep(net, sigmoid, training, batch, step, t, acc, sum, r.value);
    }
  }

  /** A fitting example's deltas add to a running sum of the parameters'
      shape: the sum is taken layer by layer with its SampleGradient. */
  lemma AddSampleSum(net: Network<real>, sigmoid: real -> real, ex: Example, step: real, acc: Gradient)
    requires Trainable(net) && Fits(net, ex) && GradientFor(net, acc, net.sizes[0])
    ensures var r := AddSample(net, sigmoid, ex, step, acc);
      var g := SampleGradient(net, sigmoid, ex, step);
      && r.Success? && GradientFor(net, r.value, net.sizes[0])
      && AddVectOfMats(acc.weights, g.weights) == Success(r.value.weights)
      && AddVectOfVects(acc.biases, g.biases) == Success(r.value.biases)
  {
    var g := SampleGradient(net, sigmoid, ex, step);
    GradientShapes(net, acc, net.sizes[0], g, net.sizes[0]);
    var w := AddVectOfMats(acc.weights, g.weights).value;
    var b := AddVectOfVects(acc.biases, g.biases).value;
    SumKeepsGradientShape(net, acc, net.sizes[0], w, b);
  }

  /** One step of AccumulateSums: adding example t's deltas to acc and then
      the sums from t + 1 on adds the sums from t on. */
  lemma AddsSumsStep(net: Network<real>, sigmoid: real -> real, training: seq<Example>, batch: seq<nat>,
                     step: real, t: nat, acc: Gradient, sum: Gradient, res: Gradient)
    requires Trainable(net) && BatchFits(net, training, batch) && t < |batch|
    requires GradientFor(net, acc, net.sizes[0]) && GradientFor(net, sum, net.sizes[0]) && GradientFor(net, res, net.sizes[0])
    requires var g := SampleGradient(net, sigmoid, training[batch[t]], step);
      && AddVectOfMats(acc.weights, g.weights) == Success(sum.weights)
      && AddVectOfVects(acc.biases, g.biases) == Success(sum.biases)
    requires AddsSums(net, sigmoid, training, batch, step, t + 1, sum, res)
    ensures AddsSums(net, sigmoid, training, batch, step, t, acc, res)
  {
    var g := SampleGradient(net, sigmoid, training[batch[t]], step);
    AddsWeightSumsStep(net, sigmoid, training, batch, step, t, acc, g, sum, res);
    AddsBiasSumsStep(net, sigmoid, training, batch, step, t, acc, g, sum, res);
  }

  lemma AddsWeightSumsStep(net: Network<real>, sigmoid: real -> real, training: seq<Example>, batch: seq<nat>,
                           step: real, t: nat, acc: Gradient, g: Gradient, sum: Gradient, res: Gradient)
    requires Trainable(net) && BatchFits(net, training, batch) && t < |batch|
    requires GradientFor(net, acc, net.sizes[0]) && GradientFor(net, sum, net.sizes[0]) && GradientFor(net, res, net.sizes[0])
    requires g == SampleGradient(net, sigmoid, training[batch[t]], step)
    requires AddVectOfMats(acc.weights, g.weights) == Success(sum.weights)
    requires AddsWeightSums(net, sigmoid, training, batch, step, t + 1, sum, res)
    ensures AddsWeightSums(net, sigmoid, training, batch, step, t, acc, res)
  {
    forall i, j, k | 0 <= i < |net.biases| && 0 <= j < net.sizes[i + 1] && 0 <= k < net.sizes[i]
      ensures WeightEntryAdds(net, sigmoid, training, batch, step, t, acc, res, i, j, k)
    {
      assert AddVectOfVects(acc.weights[i], g.weights[i]) == Success(sum.weights[i]);
      EntryOfSum(net, acc, g, sum, net.sizes[0], i, j, k);
      assert WeightEntryAdds(net, sigmoid, training, batch, step, t + 1, sum, res, i, j, k);
    }
  }

  lemma AddsBiasSumsStep(net: Network<real>, sigmoid: real -> real, training: seq<Example>, batch: seq<nat>,
                         step: real, t: nat, acc: Gradient, g: Gradient, sum: Gradient, res: Gradient)
    requires Trainable(net) && BatchFits(net, training, batch) && t < |batch|
    requires GradientFor(net, acc, net.sizes[0]) && GradientFor(net, sum, net.sizes[0]) && GradientFor(net, res, net.sizes[0])
    requires g == SampleGradient(net, sigmoid, training[batch[t]], step)
    requires AddVectOfVects(acc.biases, g.biases) == Success(sum.biases)
    requires AddsBiasSums(net, sigmoid, training, batch, step, t + 1, sum, res)
    ensures AddsBiasSums(net, sigmoid, training, batch, step, t, acc, res)
  {
    forall i, j | 0 <= i < |net.biases| && 0 <= j < net.sizes[i + 1]
      ensures res.biases[i][j] == acc.biases[i][j] + BiasSum(net, sigmoid, training, batch, step, t, i, j)
    {
      assert |acc.biases[i]| == net.sizes[i + 1];
    }
  }

  /** Entry [i][j][k] of the summed weights is the sum of the entries. */
  lemma EntryOfSum(net: Network<real>, acc: Gradient, g: Gradient, sum: Gradient, c: nat, i: nat, j: nat, k: nat)
    requires WellFormed(net) && GradientFor(net, acc, c) && GradientFor(net, g, c)
    requires i < |net.biases| && j < net.sizes[i + 1] && k < (if i == 0 then c else net.sizes[i])
    requires i < |sum.weights| && AddVectOfVects(acc.weights[i], g.weights[i]) == Success(sum.weights[i])
    ensures k < |sum.weights[i][j]| && sum.weights[i][j][k] == acc.weights[i][j][k] + g.weights[i][j][k]
  {
    assert IsMatrix(acc.weights[i], net.sizes[i + 1], if i == 0 then c else net.sizes[i]);
  }

  /** The parameters of a network, viewed as a gradient-shaped value. */
  function Params(net: Network<real>): (g: Gradient)
    requires WellFormed(net)
    ensures GradientFor(net, g, net.sizes[0])
  {
    Gradient(net.weights, net.biases)
  }

  /** On a non-empty fitting batch, sgdEpoch succeeds and sets every
      parameter to its old value plus the sum of the batch's per-example
      deltas computed at step rate / len(batch). */
  lemma SgdEpochUpdate(net: Network<real>, sigmoid: real -> real, training: seq<Example>, batch: seq<nat>, rate: real)
    requires Trainable(net) && BatchFits(net, training, batch) && |batch| > 0
    ensures SgdEpoch(net, sigmoid, training, batch, rate).Success?
    ensures var r := SgdEpoch(net, sigmoid, training, batch, rate).value;
      && GradientFor(net, Params(r), net.sizes[0])
      && AddsSums(net, sigmoid, training, batch, rate / (|batch| as real), 0, Params(net), Params(r))
  {
    var step := rate / (|batch| as real);
    var g0 := SampleGradient(net, sigmoid, training[batch[0]], step);
    AccumulateSums(net, sigmoid, training, batch, step, 1, g0);
    var g := Accumulate(net, sigmoid, training, batch, step, 1, g0).value;
    assert SgdEpoch(net, sigmoid, training, batch, rate) == ApplyGradient(net, g);
    ApplyGradientSums(net, sigmoid, training, batch, step, g0, g);
  }

  /** The last step of sgdEpoch turns the sums from the second example on,
      started at the first example's deltas, into the parameters plus the
      sums over the whole batch. */
  lemma ApplyGradientSums(net: Network<real>, sigmoid: real -> real, training: seq<Example>, batch: seq<nat>,
                          step: real, g0: Gradient, g: Gradient)
    requires Trainable(net) && BatchFits(net, training, batch) && |batch| > 0
    requires g0 == SampleGradient(net, sigmoid, training[batch[0]], step)
    requires GradientFor(net, g, net.sizes[0]) && AddsSums(net, sigmoid, training, batch, step, 1, g0, g)
    ensures var rr := ApplyGradient(net, g);
      && rr.Success?
      && GradientFor(net, Params(rr.value), net.sizes[0])
      && AddsSums(net, sigmoid, training, batch, step, 0, Params(net), Params(rr.value))
  {
    assert ApplyGradient(net, g).Success? by {
      GradientShapes(net, Params(net), net.sizes[0], g, net.sizes[0]);
    }
    var r := ApplyGradient(net, g).value;
    assert GradientFor(net, Params(r), net.sizes[0]) by {
      SumKeepsGradientShape(net, Params(net), net.sizes[0], r.weights, r.biases);
    }
    ApplyWeightSums(net, sigmoid, training, batch, step, g0, g, r);
    ApplyBiasSums(net, sigmoid, training, batch, step, g0, g, r);
  }

  /** The weight half of ApplyGradientSums. */
  lemma ApplyWeightSums(net: Network<real>, sigmoid: real -> real, training: seq<Example>, batch: seq<nat>,
                        step: real, g0: Gradient, g: Gradient, r: Network<real>)
    requires Trainable(net) && BatchFits(net, training, batch) && |batch| > 0
    requires g0 == SampleGradient(net, sigmoid, training[batch[0]], step)
    requires GradientFor(net, g, net.sizes[0]) && AddsWeightSums(net, sigmoid, training, batch, step, 1, g0, g)
    requires WellFormed(r) && r.sizes == net.sizes && GradientFor(net, Params(r), net.sizes[0])
    requires forall i :: 0 <= i < |net.weights| ==> AddVectOfVects(net.weights[i], g.weights[i]) == Success(r.weights[i])
    ensures AddsWeightSums(net, sigmoid, training, batch, step, 0, Params(net), Params(r))
  {
    forall i, j, k | 0 <= i < |net.biases| && 0 <= j < net.sizes[i + 1] && 0 <= k < net.sizes[i]
      ensures WeightEntryAdds(net, sigmoid, training, batch, step, 0, Params(net), Params(r), i, j, k)
    {
      EntryOfSum(net, Params(net), g, Params(r), net.sizes[0], i, j, k);
      assert WeightEntryAdds(net, sigmoid, training, batch, step, 1, g0, g, i, j, k);
    }
  }

  /** The bias half of ApplyGradientSums. */
  lemma ApplyBiasSums(net: Network<real>, sigmoid: real -> real, training: seq<Example>, batch: seq<nat>,
                      step: real, g0: Gradient, g: Gradient, r: Network<real>)
    requires Trainable(net) && BatchFits(net, training, batch) && |batch| > 0
    requires WellFormed(r) && r.sizes == net.sizes && GradientFor(net, g, net.sizes[0])
    requires SameShape(r.biases, net.biases) && SameShape(g.biases, net.biases)
    requires forall i, j :: 0 <= i < |net.biases| && 0 <= j < |net.biases[i]| ==>
               r.biases[i][j] == net.biases[i][j] + g.biases[i][j]
    requires g0 == SampleGradient(net, sigmoid, training[batch[0]], step)
    requires AddsBiasSums(net, sigmoid, training, batch, step, 1, g0, g)
    requires GradientFor(net, Params(r), net.sizes[0])
    ensures AddsBiasSums(net, sigmoid, training, batch, step, 0, Params(net), Params(r))
  {
    forall i, j | 0 <= i < |net.biases| && 0 <= j < net.sizes[i + 1]
      ensures r.biases[i][j] == net.biases[i][j] + BiasSum(net, sigmoid, training, batch, step, 0, i, j)
    {
      assert |net.biases[i]| == net.sizes[i + 1];
    }
  }

  // ---------------------------------------------------------------------
  // Epochs

  /** Multiplying by a non-negative factor is monotonic. */
  lemma {:induction false} MulMonotonic(a: nat, b: nat, e: nat)
    requires a <= b
    ensures a * e <= b * e
    decreases b - a
  {
    if a < b {
      MulMonotonic(a, b - 1, e);
      assert b * e == (b - 1) * e + e;
    }
  }

  /** m * e does not pass n for m up to n / e. */
  lemma MulBound(m: nat, n: nat, e: nat)
    requires e > 0 && m <= n / e
    ensures m * e <= n
  {
    var q := n / e;
    assert q * e + n % e == n;
    MulMonotonic(m, q, e);
  }

  /** Batch j of an epoch: the j-th run of e consecutive indices. */
  function Batch(perm: seq<nat>, e: nat, j: nat): (b: seq<nat>)
    requires e > 0 && j < |perm| / e
    ensures |b| == e && (j + 1) * e <= |perm| && b == perm[j * e .. (j + 1) * e]
  {
    MulBound(j + 1, |perm|, e);
    perm[j * e .. (j + 1) * e]
  }

  /** The batches SGD cuts an epoch's permutation into: len(perm) / e of
      them, batch j holding perm[j * e .. (j + 1) * e), every one full; a
      non-positive e (Go's truncating division then gives no iteration)
      yields none. e = 0 is Go's division by zero. */
  function Batches(perm: seq<nat>, epochSize: int): (bs: seq<seq<nat>>)
    requires epochSize != 0
    ensures epochSize < 0 ==> bs == []
    ensures epochSize > 0 ==> |bs| == |perm| / epochSize
    ensures forall j :: 0 <= j < |bs| ==>
              |bs[j]| == epochSize && (j + 1) * epochSize <= |perm| && bs[j] == perm[j * epochSize .. (j + 1) * epochSize]
  {
    if epochSize < 0 then []
    else
      seq(|perm| / epochSize, j requires 0 <= j < |perm| / epochSize => Batch(perm, epochSize, j))
  }

  /** The concatenation of a sequence of batches. */
  function Flatten(bs: seq<seq<nat>>): seq<nat>
  {
    if |bs| == 0 then [] else Flatten(bs[..|bs| - 1]) + bs[|bs| - 1]
  }

  /** The batches of an epoch, in order, are exactly the permutation
      without its last len(perm) mod e entries: those are never used. */
  lemma BatchesCover(perm: seq<nat>, e: nat)
    requires e > 0
    ensures Flatten(Batches(perm, e)) == perm[..|perm| - |perm| % e]
    ensures |perm| - |Flatten(Batches(perm, e))| == |perm| % e
  {
    var bs := Batches(perm, e);
    var q := |perm| / e;
    assert q * e + |perm| % e == |perm|;
    BatchesPrefix(perm, e, q);
    assert bs[..q] == bs;
  }

  lemma {:induction false} BatchesPrefix(perm: seq<nat>, e: nat, m: nat)
    requires e > 0 && m <= |perm| / e
    ensures m * e <= |perm|
    ensures Flatten(Batches(perm, e)[..m]) == perm[..m * e]
  {
    MulBound(m, |perm|, e);
    var bs := Batches(perm, e);
    if m == 0 {
      assert bs[..0] == [];
    } else {
      BatchesPrefix(perm, e, m - 1);
      var lo := (m - 1) * e;
      var hi := m * e;
      assert hi == lo + e;
      assert bs[m - 1] == perm[lo .. hi];
      assert bs[..m][..m - 1] == bs[..m - 1];
      assert perm[..hi] == perm[..lo] + perm[lo .. hi];
    }
  }

  /** No index of the permutation is repeated. */
  predicate Distinct(perm: seq<nat>) {
    forall p, q :: 0 <= p < q < |perm| ==> perm[p] != perm[q]
  }

  /** When the permutation repeats no index, no two batches of an epoch
      share an example. */
  lemma BatchesDisjoint(perm: seq<nat>, e: nat, j1: nat, j2: nat)
    requires e > 0 && Distinct(perm)
    requires j1 < j2 < |Batches(perm, e)|
    ensures forall x :: x in Batches(perm, e)[j1] ==> x !in Batches(perm, e)[j2]
  {
    var bs := Batches(perm, e);
    MulMonotonic(j1 + 1, j2, e);
    assert (j1 + 1) * e == j1 * e + e;
    forall x | x in bs[j1]
      ensures x !in bs[j2]
    {
      var p :| 0 <= p < e && bs[j1][p] == x;
      BatchElement(perm, e, j1, p);
      forall q | 0 <= q < e
        ensures bs[j2][q] != x
      {
        BatchElement(perm, e, j2, q);
      }
    }
  }

  /** Entry p of batch j is entry j * e + p of the permutation. */
  lemma BatchElement(perm: seq<nat>, e: nat, j: nat, p: nat)
    requires e > 0 && j < |Batches(perm, e)| && p < e
    ensures j * e + p < |perm| && Batches(perm, e)[j][p] == perm[j * e + p]
  {
    assert (j + 1) * e == j * e + e;
  }

  /** Every batch of the list is usable by the network. */
  predicate AllUsable(net: Network<real>, training: seq<Example>, bs: seq<seq<nat>>) {
    forall b :: b in bs ==> BatchUsable(net, training, b)
  }

  /** BatchUsable only depends on the layer sizes. */
  lemma UsableBySizes(net: Network<real>, net': Network<real>, training: seq<Example>, bs: seq<seq<nat>>)
    requires net'.sizes == net.sizes && AllUsable(net, training, bs)
    ensures AllUsable(net', training, bs)
  {
    forall b | b in bs
      ensures BatchUsable(net', training, b)
    {
      assert BatchUsable(net, training, b);
    }
  }

  /** The batch loop of one epoch: sgdEpoch on every batch in turn, each
      seeing the parameters the previous one produced. */
  function RunBatches(net: Network<real>, sigmoid: real -> real, training: seq<Example>, bs: seq<seq<nat>>, rate: real)
    : (r: Result<Network<real>>)
    requires |bs| > 0 && |bs[0]| > 0 ==> Trainable(net)
    requires AllUsable(net, training, bs)
    ensures |bs| == 0 ==> r == Success(net)
    ensures r.Success? ==> r.value.sizes == net.sizes && (Trainable(net) ==> Trainable(r.value))
    ensures r.Success? && r.value != net ==> Trainable(net)
    decreases |bs|
  {
    if |bs| == 0 then Success(net)
    else
      var next :- SgdEpoch(net, sigmoid, training, bs[0], rate);
      assert AllUsable(net, training, bs[1..]);
      UsableBySizes(net, next, training, bs[1..]);
      RunBatches(next, sigmoid, training, bs[1..], rate)
  }

  /** One epoch of SGD over the permutation the random source drew. */
  function TrainEpoch(net: Network<real>, sigmoid: real -> real, training: seq<Example>, perm: seq<nat>,
                      epochSize: int, rate: real): (r: Result<Network<real>>)
    requires epochSize != 0 && (0 < epochSize <= |perm| ==> Trainable(net))
    requires AllUsable(net, training, Batches(perm, epochSize))
    ensures !(0 < epochSize <= |perm|) ==> r == Success(net)
    ensures r.Success? ==> r.value.sizes == net.sizes && (Trainable(net) ==> Trainable(r.value))
    ensures r.Success? && r.value != net ==> Trainable(net)
  {
    var bs := Batches(perm, epochSize);
    assert |bs| > 0 ==> 0 < epochSize <= |perm| && |bs[0]| > 0;
    assert 0 < epochSize <= |perm| ==> |bs| > 0 by {
      if 0 < epochSize <= |perm| {
        DivAtLeastOne(|perm|, epochSize);
      }
    }
    RunBatches(net, sigmoid, training, Batches(perm, epochSize), rate)
  }

  /** Some epoch of the permutations holds at least one full batch, so
      backpropagation runs. */
  predicate RunsBatch(perms: seq<seq<nat>>, epochSize: int) {
    exists p :: p in perms && 0 < epochSize <= |p|
  }

  /** A positive divisor no larger than n divides it at least once. */
  lemma DivAtLeastOne(n: nat, e: nat)
    requires 0 < e <= n
    ensures n / e >= 1
  {
  }

  /** SGD: one epoch per permutation drawn (their number is epochNum),
      each run on the parameters the previous epoch left. Layer sizes and
      the shape invariant are kept. */
  function SGD(net: Network<real>, sigmoid: real -> real, training: seq<Example>, perms: seq<seq<nat>>,
               epochSize: int, rate: real): (r: Result<Network<real>>)
    requires |perms| > 0 ==> epochSize != 0
    requires RunsBatch(perms, epochSize) ==> Trainable(net)
    requires forall p :: p in perms ==> AllUsable(net, training, Batches(p, epochSize))
    ensures !RunsBatch(perms, epochSize) ==> r == Success(net)
    ensures r.Success? ==> r.value.sizes == net.sizes && (Trainable(net) ==> Trainable(r.value))
    ensures r.Success? && r.value != net ==> Trainable(net)
    decreases |perms|
  {
    if |perms| == 0 then Success(net)
    else
      assert perms[0] in perms;
      var next :- TrainEpoch(net, sigmoid, training, perms[0], epochSize, rate);
      assert RunsBatch(perms[1..], epochSize) ==> RunsBatch(perms, epochSize) by {
        if RunsBatch(perms[1..], epochSize) {
          var p :| p in perms[1..] && 0 < epochSize <= |p|;
          assert p in perms;
        }
      }
      assert forall p :: p in perms[1..] ==> AllUsable(next, training, Batches(p, epochSize)) by {
        forall p | p in perms[1..]
          ensures AllUsable(next, training, Batches(p, epochSize))
        {
          UsableBySizes(net, next, training, Batches(p, epochSize));
        }
      }
      SGD(next, sigmoid, training, perms[1..], epochSize, rate)
  }

  /** Every example of the training set fits the network. */
  predicate SetFits(net: Network<real>, training: seq<Example>)
    requires |net.sizes| >= 2
  {
    forall e :: 0 <= e < |training| ==> Fits(net, training[e])
  }

  /** On a training set whose examples all fit, and permutations of its
      indices, training never fails: every batch is full, so EmptyBatch
      cannot arise, and no shape mismatch can either. */
  lemma {:induction false} RunBatchesSucceeds(net: Network<real>, sigmoid: real -> real, training: seq<Example>,
                                               bs: seq<seq<nat>>, rate: real)
    requires Trainable(net) && AllUsable(net, training, bs) && SetFits(net, training)
    requires forall b :: b in bs ==> |b| > 0
    ensures RunBatches(net, sigmoid, training, bs, rate).Success?
    decreases |bs|
  {
    if |bs| > 0 {
      assert bs[0] in bs;
      SgdEpochOutcome(net, sigmoid, training, bs[0], rate);
      var next := SgdEpoch(net, sigmoid, training, bs[0], rate).value;
      assert AllUsable(net, training, bs[1..]);
      UsableBySizes(net, next, training, bs[1..]);
      assert forall b :: b in bs[1..] ==> b in bs;
      RunBatchesSucceeds(next, sigmoid, training, bs[1..], rate);
    }
  }

  /** Every batch cut from a sequence of training-set indices is usable
      when every example fits. */
  lemma BatchesUsable(net: Network<real>, training: seq<Example>, p: seq<nat>, epochSize: int)
    requires |net.sizes| >= 2 && epochSize != 0 && SetFits(net, training)
    requires forall u :: 0 <= u < |p| ==> p[u] < |training|
    ensures AllUsable(net, training, Batches(p, epochSize))
  {
    var bs := Batches(p, epochSize);
    forall b | b in bs
      ensures BatchUsable(net, training, b)
    {
      var j :| 0 <= j < |bs| && bs[j] == b;
      BatchUsableAt(net, training, p, epochSize, j);
    }
  }

  /** Batch j of in-range indices is usable when all examples fit. */
  lemma BatchUsableAt(net: Network<real>, training: seq<Example>, p: seq<nat>, e: nat, j: nat)
    requires |net.sizes| >= 2 && e > 0 && SetFits(net, training)
    requires forall u :: 0 <= u < |p| ==> p[u] < |training|
    requires j < |Batches(p, e)|
    ensures BatchUsable(net, training, Batches(p, e)[j])
  {
    var b := Batches(p, e)[j];
    forall u | 0 <= u < |b|
      ensures b[u] < |training| && InputFits(net, |training[b[u]].input|)
    {
      BatchElement(p, e, j, u);
      assert Fits(net, training[b[u]]);
    }
  }

  /** SGD on a training set whose examples all fit the network succeeds
      for every sequence of permutations. */
  lemma {:induction false} SgdSucceeds(net: Network<real>, sigmoid: real -> real, training: seq<Example>,
                                        perms: seq<seq<nat>>, epochSize: int, rate: real)
    requires Trainable(net) && (|perms| > 0 ==> epochSize != 0) && SetFits(net, training)
    requires forall p, u :: p in perms && 0 <= u < |p| ==> p[u] < |training|
    ensures forall p :: p in perms ==> AllUsable(net, training, Batches(p, epochSize))
    ensures SGD(net, sigmoid, training, perms, epochSize, rate).Success?
    decreases |perms|
  {
    forall p | p in perms
      ensures AllUsable(net, training, Batches(p, epochSize))
    {
      BatchesUsable(net, training, p, epochSize);
    }
    if |perms| > 0 {
      var bs := Batches(perms[0], epochSize);
      assert perms[0] in perms;
      RunBatchesSucceeds(net, sigmoid, training, bs, rate);
      var next := TrainEpoch(net, sigmoid, training, perms[0], epochSize, rate).value;
      assert SetFits(next, training);
      assert forall p, u :: p in perms[1..] && 0 <= u < |p| ==> p[u] < |training| by {
        forall p, u | p in perms[1..] && 0 <= u < |p|
          ensures p[u] < |training|
        {
          assert p in perms;
        }
      }
      SgdSucceeds(next, sigmoid, training, perms[1..], epochSize, rate);
    }
  }

  // ---------------------------------------------------------------------
  // Inference against the training forward pass

  /** The loop of the corrected inference from layer i on: the weighted
      input, biases included, then the sigmoid. */
  function PredictFrom(net: Network<real>, sigmoid: real -> real, a: Vector, i: nat): (out: Vector)
    requires WellFormed(net) && i <= |net.biases|
    requires i == 0 ==> InputFits(net, |a|)
    requires i > 0 ==> |a| == net.sizes[i]
    ensures i == |net.biases| ==> out == a
    ensures i < |net.biases| ==> |out| == OutputSize(net)
    decreases |net.biases| - i
  {
    if i == |net.biases| then a
    else PredictFrom(net, sigmoid, SigmoidVect(sigmoid, WeightedInput(net, i, a)), i + 1)
  }

  /** Inference as the documentation of FeedForward describes it: the
      output activation of the forward pass training uses, biases added at
      every layer. */
  function Predict(net: Network<real>, sigmoid: real -> real, input: Vector): (out: Vector)
    requires WellFormed(net) && InputFits(net, |input|)
    ensures out == ComputeAZ(net, sigmoid, input).activations[|net.sizes| - 1]
    ensures |net.biases| > 0 ==> |out| == OutputSize(net)
  {
    PredictFromAgrees(net, sigmoid, input, 0);
    PredictFrom(net, sigmoid, input, 0)
  }

  lemma {:induction false} PredictFromAgrees(net: Network<real>, sigmoid: real -> real, input: Vector, i: nat)
    requires WellFormed(net) && InputFits(net, |input|) && i <= |net.biases|
    ensures var f := ComputeAZ(net, sigmoid, input);
      PredictFrom(net, sigmoid, f.activations[i], i) == f.activations[|net.biases|]
    decreases |net.biases| - i
  {
    var f := ComputeAZ(net, sigmoid, input);
    if i < |net.biases| {
      var a := f.activations[i];
      assert LayerStep(net, sigmoid, i, a, f.weighted[i], f.activations[i + 1]);
      var z := WeightedInput(net, i, a);
      assert z == f.weighted[i];
      assert SigmoidVect(sigmoid, z) == f.activations[i + 1];
      PredictFromAgrees(net, sigmoid, input, i + 1);
    }
  }

  /** Every bias is zero. */
  predicate ZeroBiases(net: Network<real>) {
    forall i, j :: 0 <= i < |net.biases| && 0 <= j < |net.biases[i]| ==> net.biases[i][j] == 0.0
  }

  /** When every bias is zero, FeedForward as written agrees with the
      forward pass training uses. */
  lemma FeedForwardWithoutBiases(net: Network<real>, sigmoid: real -> real, input: Vector)
    requires WellFormed(net) && InputFits(net, |input|) && ZeroBiases(net)
    ensures FeedForward(net, sigmoid, input) == ComputeAZ(net, sigmoid, input).activations[|net.sizes| - 1]
  {
    FeedFromAgrees(net, sigmoid, input, 0);
  }

  lemma {:induction false} FeedFromAgrees(net: Network<real>, sigmoid: real -> real, input: Vector, i: nat)
    requires WellFormed(net) && InputFits(net, |input|) && ZeroBiases(net) && i <= |net.biases|
    ensures var f := ComputeAZ(net, sigmoid, input);
      FeedFrom(net, sigmoid, f.activations[i], i) == f.activations[|net.biases|]
    decreases |net.biases| - i
  {
    var f := ComputeAZ(net, sigmoid, input);
    if i < |net.biases| {
      var a := f.activations[i];
      assert LayerStep(net, sigmoid, i, a, f.weighted[i], f.activations[i + 1]);
      assert IsMatrix(net.weights[i], net.sizes[i + 1], net.sizes[i]);
      var next := SigmoidVect(sigmoid, MultMatrixVect(net.weights[i], a));
      assert forall j :: 0 <= j < |next| ==> next[j] == f.activations[i + 1][j] by {
        forall j | 0 <= j < |next|
          ensures next[j] == f.activations[i + 1][j]
        {
          assert net.biases[i][j] == 0.0;
        }
      }
      assert next == f.activations[i + 1];
      FeedFromAgrees(net, sigmoid, input, i + 1);
    }
  }

  /** The same network with every bias set to zero. */
  function StripBiases(net: Network<real>): (r: Network<real>)
    ensures r.sizes == net.sizes && r.weights == net.weights
    ensures SameShape(r.biases, net.biases) && ZeroBiases(r)
    ensures WellFormed(net) ==> WellFormed(r)
  {
    Network(net.sizes, net.weights, seq(|net.biases|, i requires 0 <= i < |net.biases| => Zeros(|net.biases[i]|)))
  }

  /** FeedForward as written on any network: each layer is the sigmoid of
      the weights times the previous activation, with no bias, which is the
      training forward pass of the same network stripped of its biases. */
  lemma FeedForwardIgnoresBiases(net: Network<real>, sigmoid: real -> real, input: Vector)
    requires WellFormed(net) && InputFits(net, |input|)
    ensures FeedForward(net, sigmoid, input) == ComputeAZ(StripBiases(net), sigmoid, input).activations[|net.sizes| - 1]
  {
    var u := StripBiases(net);
    FeedFromStripped(net, sigmoid, input, 0);
    FeedForwardWithoutBiases(u, sigmoid, input);
  }

  /** FeedFrom never reads a bias, so stripping them changes nothing. */
  lemma {:induction false} FeedFromStripped(net: Network<real>, sigmoid: real -> real, a: Vector, i: nat)
    requires WellFormed(net) && i <= |net.biases|
    requires i == 0 ==> InputFits(net, |a|)
    requires i > 0 ==> |a| == net.sizes[i]
    ensures FeedFrom(net, sigmoid, a, i) == FeedFrom(StripBiases(net), sigmoid, a, i)
    decreases |net.biases| - i
  {
    if i < |net.biases| {
      assert IsMatrix(net.weights[i], net.sizes[i + 1], net.sizes[i]);
      FeedFromStripped(net, sigmoid, SigmoidVect(sigmoid, MultMatrixVect(net.weights[i], a)), i + 1);
    }
  }

  /** FeedForward as written ignores the biases: on a one-weight network
      whose only weight is 0 and whose only bias is 1, it returns
      sigmoid(0) where the training forward pass computes sigmoid(1). Any
      sigmoid that tells 0 and 1 apart, the logistic one included, shows it. */
  lemma FeedForwardDropsBias(sigmoid: real -> real)
    requires sigmoid(0.0) != sigmoid(1.0)
    ensures var net := Network([1, 1], [[[0.0]]], [[1.0]]);
      && WellFormed(net)
      && FeedForward(net, sigmoid, [0.0]) == [sigmoid(0.0)]
      && Predict(net, sigmoid, [0.0]) == [sigmoid(1.0)]
      && FeedForward(net, sigmoid, [0.0]) != Predict(net, sigmoid, [0.0])
  {
    var net := Network([1, 1], [[[0.0]]], [[1.0]]);
    assert WellFormed(net);
    assert Dot(net.weights[0][0], [0.0], 1) == 0.0;
    assert MultMatrixVect(net.weights[0], [0.0]) == [0.0];
    assert FeedForward(net, sigmoid, [0.0]) == [sigmoid(0.0)];
    var f := ComputeAZ(net, sigmoid, [0.0]);
    assert LayerStep(net, sigmoid, 0, f.activations[0], f.weighted[0], f.activations[1]);
    assert f.weighted[0][0] == 1.0;
    assert f.activations[1] == [sigmoid(1.0)];
  }

  // ---------------------------------------------------------------------
  // The worked example of sdg_test.go

  /** The 2-3-2 network of the test table. */
  function TestNetwork(): (net: Network<real>)
    ensures Trainable(net) && net.sizes == [2, 3, 2]
  {
    var net := Network([2, 3, 2],
      [[[1.0, 2.0], [-3.0, 6.0], [7.0, -4.0]], [[-6.0, 3.0, -1.0], [4.0, 2.0, -12.0]]],
      [[6.0, 4.0, 2.0], [2.0, 5.0]]);
    assert IsMatrix(net.weights[0], 3, 2) && IsMatrix(net.weights[1], 2, 3);
    net
  }

  /** On input (1, 0) the first layer's weighted inputs are exactly
      (7, 1, 9), whatever the sigmoid. */
  lemma TestNetworkWeighted(sigmoid: real -> real)
    ensures ComputeAZ(TestNetwork(), sigmoid, [1.0, 0.0]).weighted[0] == [7.0, 1.0, 9.0]
  {
    var net := TestNetwork();
    var a := [1.0, 0.0];
    var f := ComputeAZ(net, sigmoid, a);
    assert LayerStep(net, sigmoid, 0, f.activations[0], f.weighted[0], f.activations[1]);
    assert Dot(net.weights[0][0], a, 2) == 1.0;
    assert Dot(net.weights[0][1], a, 2) == -3.0;
    assert Dot(net.weights[0][2], a, 2) == 7.0;
  }

  /** The second input entry is 0, so the second column of the first
      weight delta is 0, and the first input entry is 1, so the first
      column equals the first bias delta. */
  lemma TestNetworkDeltaColumns(net: Network<real>, sigmoid: real -> real, input: Vector, expected: Vector)
    requires net == TestNetwork() && input == [1.0, 0.0] && expected == [1.0, 0.0]
    ensures var g := ComputeWBDeltas(net, sigmoid, input, expected, 4.0);
      && g.Success?
      && forall j :: 0 <= j < 3 ==> g.value.weights[0][j][1] == 0.0 && g.value.weights[0][j][0] == g.value.biases[0][j]
  {
    FirstLayerColumns(net, sigmoid, input, expected, 4.0);
    assert input[0] == 1.0 && input[1] == 0.0;
  }
}
